=== FILE: README.md ===
# FLDPLN BIL tools, modelled in Dafny

This project models three small scripts of the FLDPLN Python tools. They work on rasters in BIL (band interleaved by line) format: a `.bil` file of raw samples and a sibling `.hdr` text header.

- **Header parsing** (`read_header_info`, `readbilheader`). A header's text becomes a record with these fields:
  - byte order;
  - rows, columns, bands and bits per sample, plus bytes per sample;
  - the no-data value;
  - the dialect (ESRI or ERDAS);
  - for ESRI, the origin and pixel size;
  - the numpy sample format.

  Every field is found by a leftmost `re.search(r'KEY\s+(TOKEN)')`. The model is `Text.Find`: the capture is taken at the leftmost position where the key, a non-empty whitespace run and a token of the requested kind all match, not merely at the first occurrence of the key. So `NROWSX 3 NROWS 10` gives `10` for `NROWS`. The token is the longest one of its kind. `Text.DecimalAtLongest` proves that the decimal alternation `[-+]?\d*\.\d+|\d+` captures exactly the longest decimal-literal prefix. Captured decimals stay as text.
- **Stream map** (`make_stream_map`). The flow-accumulation raster is read in `r` rows of up to `c` samples. Each row becomes 0/1 bytes against a threshold, and the header is rewritten line by line. The file is a sequence of already-decoded integer samples. Consecutive `np.fromfile` reads are `Stream.Reads`: each read returns the next `count` samples, or what remains.
- **Scan** (`scanbil`). The raster is read in chunks of 100 rows. The scan keeps the running minimum and maximum, and a "second minimum" `mn2`: the smallest sample above the running minimum. It then applies the background rule at zero. The seeds `±np.finfo(float).max` are `Scan.Ext`'s `NegHuge`/`PosHuge`.

Files:
- `wrappers.dfy`: `Option` and `Result`.
- `text.dfy`: character classes and the matchers.
- `header.dfy`: module `BilHeader`.
- `stream.dfy`: sequential reads.
- `rewrite.dfy`: module `HeaderRewrite`.
- `streammap.dfy`: module `StreamMap`.
- `scan.dfy`: module `Scan`.

Behaviour of the code that a reader might not expect, and that the model keeps:
- **Short final row in `make_stream_map`.** A row read short is not skipped. The code writes one flag per sample read when some sample reaches the threshold, and `c` zero bytes otherwise (make_stream_map.py:44-59). `StreamMap.ShortRowPaddedExample` and `StreamMap.ShortRowHitExample` show both cases.
- **Header rewrite.** The row-byte lines are the literal `2703` (make_stream_map.py:71-73), not a value derived from `c` (`HeaderRewrite.Replacements`).
- **Byte order in `make_stream_map`.** When `bytord` is 1 the raster is opened with `open(facf, 'rb', newline='')`. Python rejects a `newline` argument in binary mode with a `ValueError`, so the script stops before writing anything (`StreamMap.MakeStreamMap`). `StreamMap.MakeStreamMapCorrected` is the script with an open that does not raise. Because the model takes samples already decoded, it cannot say how a byte-order-1 raster should be decoded. See Findings.
- **Trailing chunk in `scanbil`.** The trailing read asks for `rows mod 100` samples (scanbil.py:52), not `rows mod 100` rows of `cols` samples. `Scan.ScanBil` follows the code; `Scan.ScanBilCorrected` asks for the remaining rows. Both are instances of `Scan.ScanBilWith`. See Findings.

## Model

| member | source | states |
|---|---|---|
| Text.DecimalAtLongest | readbilheader.py:29 | the decimal alternation captures the longest prefix of the text that is a signed-or-unsigned fraction or an unsigned digit run, and nothing when no prefix is one |
| Text.FindLeftmost | readbilheader.py:26 | a search captures from the leftmost position where key, whitespace and token match, and finds nothing exactly when the pattern matches nowhere |
| Text.Find | readbilheader.py:26-28 | `re.search(...).group(1)`: what a search captures is a token of the requested kind (digits, decimal, word); `Text.FindLeftmost` states where it is taken from |
| Text.MatchAtShape | readbilheader.py:26 | a match reads the key, a maximal non-empty whitespace run, then the longest token |
| Text.Occurs | readbilheader.py:35 | `p in s` holds exactly when some suffix of `s` starts with `p` |
| Text.DecimalRoundTrip | readbilheader.py:45-48 | the bit count written into the dtype name (`f"int{nbits}"`) reads back with `int()` as the same number |
| BilHeader.ByteOrder | readbilheader.py:25 | `bytord` is 0 exactly when `BYTEORDER`, whitespace and `I` match somewhere, and 1 otherwise |
| BilHeader.Required | readbilheader.py:26 | a dereferenced search succeeds exactly when the pattern matches, with its capture; otherwise it fails naming the key |
| BilHeader.RequireAll | readbilheader.py:26-42 | the mandatory searches succeed exactly when every one matches; otherwise the failure names the first one in source order that did not |
| BilHeader.ReadHeaderInfo | readbilheader.py:22-54 | parsing succeeds exactly when every mandatory field of the header's dialect is found; `nbyts` is `nbits div 8`; the dialect is ESRI exactly when `ULXMAP` occurs; ERDAS headers get `single`; ESRI headers get the format their `PIXELTYPE` word selects |
| BilHeader.HeaderGeometryFields | readbilheader.py:25-31 | `bytord` is the byte-order test; `r`, `c`, `bands` and `nbits` are `int()` of the leftmost digit captures after their keys; `nodata` is the leftmost decimal capture after `NODATA`, if any |
| BilHeader.HeaderOriginFields | readbilheader.py:38-42 | the ESRI origin and pixel size are the leftmost decimal captures after `ULXMAP`, `ULYMAP`, `XDIM`, `YDIM` |
| BilHeader.EsriFormat | readbilheader.py:43-50 | `SIGNEDINT` gives a signed format of `nbits` bits, `UNSIGNEDINT` an unsigned one; `FLOAT` gives `single` for 32 bits and `double` otherwise; any other or missing word sets no format |
| BilHeader.FormatNameInjective | readbilheader.py:45-50 | different formats get different dtype names |
| BilHeader.NodataSignedIntegerIgnored | readbilheader.py:29-30 | after `NODATA` and whitespace, a signed integer is not captured at all, so `nodata` is absent |
| BilHeader.NodataDecimalCaptured | readbilheader.py:29-30 | after `NODATA` and whitespace, any decimal literal (`5`, `3.5`, `-3.5`) is captured whole |
| BilHeader.NodataSignedFractionExample | readbilheader.py:29-30 | `NODATA -3.5` yields `-3.5` |
| BilHeader.NodataSignedIntegerExample | readbilheader.py:29-30 | `NODATA -9999` yields no value |
| BilHeader.HeaderPath | readbilheader.py:67 | the header path is the raster path with its last three characters replaced by `hdr`; a path shorter than three characters becomes just `hdr` |
| BilHeader.HeaderPathSwapsExtension | readbilheader.py:67 | the header of `stem.bil` is `stem.hdr` |
| BilHeader.HeaderPathIdempotent | readbilheader.py:67 | the header path of a header path is itself |
| Stream.Slice | make_stream_map.py:42 | a read returns the next `count` samples, or all that remain, in order |
| Stream.ReadsAt | make_stream_map.py:40-42 | read `k` starts where the sizes requested before it add up to, capped at the end of the file |
| Stream.FlattenReads | scanbil.py:44-52 | consecutive reads together return exactly the prefix of the file up to the final cursor, with nothing skipped or repeated |
| Stream.ReadsFull | scanbil.py:45 | when the file holds everything requested, each read returns exactly what it asked for |
| HeaderRewrite.RewriteLine | make_stream_map.py:68-79 | a line that starts with a trigger becomes the replacement literal of the first trigger it starts with, and that literal starts with the same first trigger; a line that starts with no trigger is copied |
| HeaderRewrite.RewriteLineByTable | make_stream_map.py:68-79 | the `if`/`elif` chain: a line that starts with trigger `i` of `NBIT`, `BANDROWBYTE`, `TOTALROWBYTE`, `PIXELTYP`, `NODATA`, and with none checked before it, becomes replacement `i`; a line that starts with none is copied |
| HeaderRewrite.ReplacementsKeepTrigger | make_stream_map.py:68-77 | each replacement literal starts with the prefix that selected it and with no prefix checked before it |
| HeaderRewrite.RewriteLineIdempotent | make_stream_map.py:68-79 | rewriting a rewritten line changes nothing |
| HeaderRewrite.SplitLinesJoin | make_stream_map.py:67 | the lines a file iterates over concatenate back to the file's text |
| HeaderRewrite.JoinSplitLines | make_stream_map.py:67 | lines whose only newline is their final character, with every line but the last ending in one, split back into themselves after joining |
| HeaderRewrite.RewriteText | make_stream_map.py:66-79 | the new header has one line per original line, in order, each the rewrite of its original |
| HeaderRewrite.RewriteTextIdempotent | make_stream_map.py:66-79 | rewriting the new header again changes nothing |
| HeaderRewrite.RewriteTextUntouched | make_stream_map.py:78-79 | a header with no line starting with a trigger is copied unchanged |
| StreamMap.AnyAtLeast | make_stream_map.py:46 | true exactly when some sample reaches the threshold |
| StreamMap.Classify | make_stream_map.py:48-51 | one byte per sample, 1 exactly where the sample reaches the threshold |
| StreamMap.Zeros | make_stream_map.py:34 | `c` zero bytes |
| StreamMap.RowOutput | make_stream_map.py:44-59 | an empty read writes nothing; a row with a hit writes one flag per sample read; any other row writes `c` zero bytes, however many samples were read |
| StreamMap.RowIsSlice | make_stream_map.py:40-42 | row `j` is the `j`-th run of `c` samples, cut short at the end of the source |
| StreamMap.RasterStep | make_stream_map.py:40-59 | processing one more row appends exactly that row's output |
| StreamMap.RasterFull | make_stream_map.py:40-59 | with at least `r*c` samples the output is exactly `r*c` bytes, and byte `i` is 1 exactly when sample `i` reaches the threshold |
| StreamMap.RowsPastEndWriteNothing | make_stream_map.py:42-44 | rows starting at or past the end of the source add nothing to the output |
| StreamMap.RasterExample | make_stream_map.py:40-59 | samples `1 2 5 6 3 9` in three rows of two with threshold 5 give `0 0 1 1 0 1` |
| StreamMap.ShortRowPaddedExample | make_stream_map.py:57-59 | a short final row without a hit is written as `c` zero bytes |
| StreamMap.ShortRowHitExample | make_stream_map.py:46-52 | a short final row with a hit writes one flag per sample read |
| StreamMap.RowBytes | make_stream_map.py:44-59 | the loop body's flags and hit test produce the row's output |
| StreamMap.MakeStreamRows | make_stream_map.py:40-59 | the cursor-driven row loop writes the row-by-row output, every byte 0 or 1 |
| StreamMap.MakeStreamMap | make_stream_map.py:16-79 | succeeds exactly when the header parses, names a format and has byte order 0 (`BYTEORDER I`); a parsed header without a format fails with `FormatUnset` (the `KeyError` on `'fmt'`); a parsed header with a format and byte order 1 fails with the binary-mode `newline` error; on success the result is the corrected script's |
| StreamMap.MakeStreamMapCorrected | make_stream_map.py:16-79 | succeeds exactly when the header parses and names a format, and a parsed header without a format fails with `FormatUnset`; on success the raster is the row loop's output, the new header is the line-by-line rewrite, and it goes to the sibling `.hdr` of `strf` |
| StreamMap.BinaryNewlineRejected | make_stream_map.py:25-26 | a header that parses and names a format but has no `BYTEORDER I` match makes the script fail, while the corrected script writes the map |
| Scan.MinOf | scanbil.py:46 | the smallest sample, one of the samples and no larger than any of them; the seed `PosHuge` for no samples |
| Scan.MaxOf | scanbil.py:47 | the largest sample, one of the samples and no smaller than any of them; the seed `NegHuge` for no samples |
| Scan.Above | scanbil.py:48-49 | `dat[dat > m]` holds exactly the values of the chunk that are above `m` |
| Scan.AboveKeepsCount | scanbil.py:48-49 | `dat[dat > m]` keeps every sample above `m` as often as it occurs in the chunk, and no other |
| Scan.StepSpec | scanbil.py:45-49 | one pass of the loop body on the summary of the samples seen so far gives the summary of those samples and the new chunk: their minimum and maximum, and the smallest candidate for `mn2` |
| Scan.FirstEmpty | scanbil.py:45-46 | the first chunk that read nothing, and none exactly when every chunk read something |
| Scan.ScanReadsOutcome | scanbil.py:44-56 | the scan succeeds exactly when every chunk read something, and otherwise fails at the first empty chunk |
| Scan.FirstEmptyRead | scanbil.py:45-46 | a scan whose chunk `k` is the first empty one fails at `k` |
| Scan.ScanReadsSpec | scanbil.py:36-56 | `mn` and `mx` are the minimum and maximum of all samples read, and `mn2` is the smallest sample that was above the running minimum when its chunk was processed |
| Scan.Mn2Bounds | scanbil.py:38-56 | `mn2` keeps its seed exactly when no sample was ever above the running minimum; otherwise it is above the final minimum; and it is never below the smallest sample above the final minimum |
| Scan.Mn2OvershootExample | scanbil.py:44-56 | chunks `10 20` then `-9999 15` give `mn2 = 15`, although 10 is the smallest sample above the minimum |
| Scan.SummarySpec | scanbil.py:59-65 | no background exactly when every sample is positive, and then the reported minimum is the minimum; otherwise the background is the minimum and the reported minimum is `mn2`, above it |
| Scan.PositiveMin | scanbil.py:59 | the minimum is positive exactly when every sample is |
| Scan.ChunkCounts | scanbil.py:40-52 | there are `rows div 100` full chunks, plus one more when `rows mod 100` is not zero |
| Scan.ChunkSizes | scanbil.py:44-52 | every full chunk asks for `cols*100` samples; the trailing read asks for `rows mod 100` samples as written and `rows mod 100` rows of `cols` samples as corrected |
| Scan.ChunkTotals | scanbil.py:40-52 | the corrected plan asks for exactly `rows*cols` samples; as written it asks for `(cols-1)*(rows mod 100)` fewer |
| Scan.CorrectedScanCoversRaster | scanbil.py:51-54 | with the trailing read asking for the remaining rows, the scan of a complete file succeeds, and its minimum and maximum are those of the raster's `rows*cols` samples |
| Scan.AsWrittenScanCoverage | scanbil.py:51-52 | as written the scan reads exactly a prefix of the raster, and when `cols > 1` and `rows mod 100 > 0` that prefix stops before the raster's end |
| Scan.AsWrittenMissesLastSample | scanbil.py:51-54 | as written, a raster whose last sample is its unique maximum reports a smaller maximum whenever `cols > 1` and `rows mod 100 > 0` |
| Scan.TrailingReadCounterexample | scanbil.py:51-54 | 101 rows of 2 samples, all 0 but a final 1: as written the maximum is not 1; with the corrected read it is 1 |
| Scan.ScanStream | scanbil.py:34-56 | the cursor-driven chunk loop returns the scan of the chunks read, stopping at the first empty read |
| Scan.ScanWith | scanbil.py:30-65 | under either plan: no format fails before the raster is read; an `EmptyRead` failure names the first chunk that read nothing; with a format, the scan succeeds exactly when every planned read is non-empty (`np.min` of an empty chunk raises); on success the maximum is that of the samples the planned reads covered, there is no background exactly when all of them are positive, and then the reported minimum is their minimum; otherwise the background is their minimum and the reported minimum is `mn2`, the minimum of the samples that were above the running minimum |
| Scan.ScanBilWith | scanbil.py:16-30 | a header missing a mandatory field fails with the parser's error; a header without a format fails before the raster is read; success implies both were present. `Scan.ScanBil` is this with the trailing read as written, `Scan.ScanBilCorrected` with the corrected one |
| Scan.ChunkPlansAgree | scanbil.py:40-52 | when `rows mod 100` is 0 or the raster is one column wide, both plans ask for the same reads |
| Scan.ScanWithPlansAgree | scanbil.py:30-65 | on such rasters the two plans give the same scan of any parsed header and file |
| Scan.ScanBilPlansAgree | scanbil.py:16-65 | on such rasters `scanbil` as written and corrected return the same result |
| Scan.CorrectedScanWithCoversRaster | scanbil.py:30-65 | only under the corrected trailing read: for a header with a format and a complete file, the scan succeeds with the raster's maximum, and no background exactly when every raster sample is positive |
| Scan.AsWrittenScanWithReadsPrefix | scanbil.py:30-65 | as written, for a header with a format, more than one column and a partial chunk, the scan of a complete file succeeds but its maximum and background describe only a proper prefix of the raster |

## Left out

- File I/O is not modelled: opening, reading, writing and closing files. Header text and raster samples are parameters, and outputs are returned as values.
- Sample decoding is not modelled. `np.fromfile` decodes samples by width and signedness, in the machine's native byte order: neither script passes `bytord` to numpy (make_stream_map.py:21 and scanbil.py:31 read it, and only `make_stream_map` uses it, to choose the open mode). So a `BYTEORDER M` raster is decoded in native order, not as big-endian. The model takes the samples already decoded as integers. Float formats (`single`, `double`) are therefore modelled with integer samples, and NaN, infinities and rounding are left out.
- `float()` conversion of captured numbers is left out. `nodata`, the origin and the pixel size are kept as the captured text.
- The `±np.finfo(float).max` seeds are the symbolic values `NegHuge` and `PosHuge`, which no sample reaches.
- `\d` and `\w` are restricted to ASCII. Python's `str` patterns also accept other Unicode digits and letters.
- The header rewrite reads in text mode. That mode translates `\r\n` and `\r` to `\n` on input; the model splits on `\n` only and does no newline translation.
- Diagnostic `print` calls and the `__main__` blocks are left out.
- Multi-band rasters are not modelled. `bands` is parsed, but neither script uses it, and the model does the same.
- StreamMap.MakeStreamMap: numpy's dtype check is not modelled. `np.dtype` rejects names that `BilHeader.EsriFormat` can produce from an unusual `NBITS`, such as `int12` or `uint4`, so for such a header with at least one row the script raises at its first read. The model reads integer samples whatever the format.
- Scan.ScanWith: the same dtype check is not modelled; for a header naming such a format, with at least one row, `scanbil` raises at its first read.
- Scan.CorrectedScanWithCoversRaster: requires at least one column. With zero columns every read asks for nothing, so a raster with rows fails at its first chunk; `Scan.ScanWith` states the failure but this lemma does not cover that case.
- Scan.ScanBilWith: its contract covers the header-level outcomes. The raster-level result is stated over the parsed record by `Scan.ScanWith`, because the parser's contract and the scan's arithmetic do not combine cheaply in one proof.

## Findings

| source | as written | input that shows it | evidently intended | confidence | as-written member | corrected member |
|---|---|---|---|---|---|---|
| scanbil.py:52 | the trailing read asks for `md` samples, where `md` is the number of remaining rows | 101 rows of 2 samples, 201 zeros then a 1: the trailing read takes one sample, so the final 1 is never scanned and the maximum is 0 | ask for `md*cols` samples, the remaining rows, as the full chunks ask for `cols*100` | high (not executed) | Scan.AsWrittenMissesLastSample | Scan.CorrectedScanCoversRaster |
| make_stream_map.py:25-26 | when `bytord` is 1 the raster is opened with `open(facf, 'rb', newline='')`, and Python's `open` rejects a `newline` argument in binary mode with a `ValueError` | a header that parses and names a format, with `BYTEORDER M` or no `BYTEORDER` line: the script stops before writing the stream map | at least an open that does not raise. The comment at make_stream_map.py:21 singles out byte order 1 for a `'b'` option. readbilheader.py:2 says the code was translated from Matlab, where the `'b'` machine format of `fopen` means big-endian, so the likely intent is to decode big-endian samples. The model takes samples already decoded, so the corrected member captures only that the script does not raise | high that it raises, medium on the intent (not executed) | StreamMap.BinaryNewlineRejected | StreamMap.MakeStreamMapCorrected |

=== FILE: header.dfy ===
/** The BIL header parser: `read_header_info` turns the text of a `.hdr`
    file into a record, and `readbilheader` finds that file next to the
    raster. Numeric fields read with the decimal pattern are kept as the
    captured text; fields read with `\d+` are converted with `int()`. */
module BilHeader {
  import opened Wrappers
  import opened Text

  /** The two header vocabularies. Only the ESRI dialect carries the origin
      and pixel-size fields, so they live in its variant. */
  datatype Dialect =
    | Esri(ulx: string, uly: string, pxszx: string, pxszy: string)
    | Erdas

  /** The numpy dtype the raster samples are decoded with. */
  datatype SampleFormat = SignedInt(bits: nat) | UnsignedInt(bits: nat) | Single | Double

  /** The dictionary `read_header_info` returns. `fmt` is `None` when the
      dictionary has no `'fmt'` key. */
  datatype HeaderInfo = HeaderInfo(
    bytord: nat,
    r: nat,
    c: nat,
    bands: nat,
    nodata: Option<string>,
    nbits: nat,
    nbyts: nat,
    biltyp: Dialect,
    fmt: Option<SampleFormat>)

  /** A mandatory search found nothing: `.group(1)` was called on `None`. */
  datatype ParseError = MissingField(key: string)

  /** A search whose result the source dereferences unconditionally. */
  function Required(s: string, key: string, tok: Token): (r: Result<string, ParseError>)
    ensures r.Success? <==> Find(s, key, tok).Some?
    ensures r.Success? ==> Find(s, key, tok) == Some(r.value) && InToken(tok, r.value)
    ensures r.Failure? ==> r.error == MissingField(key)
  {
    match Find(s, key, tok)
    case Some(t) => Success(t)
    case None => Failure(MissingField(key))
  }

  /** `BYTEORDER\s+I` found: the file is opened without `newline=''`. */
  function ByteOrder(s: string): (b: nat)
    ensures b <= 1
    ensures b == 0 <==> exists j :: 0 <= j <= |s| && MatchAt(s, j, "BYTEORDER", Literal('I')).Some?
  {
    FindLeftmost(s, "BYTEORDER", Literal('I'));
    if Find(s, "BYTEORDER", Literal('I')).Some? then 0 else 1
  }

  /** The `fmt` entry an ESRI header gets from its `PIXELTYPE` word. */
  function EsriFormat(pixeltype: Option<string>, nbits: nat): (f: Option<SampleFormat>)
    ensures f == Some(SignedInt(nbits)) <==> pixeltype == Some("SIGNEDINT")
    ensures f == Some(UnsignedInt(nbits)) <==> pixeltype == Some("UNSIGNEDINT")
    ensures f.Some? && (f.value.Single? || f.value.Double?) <==> pixeltype == Some("FLOAT")
    ensures f == Some(Single) ==> nbits == 32
    ensures pixeltype == Some("FLOAT") && nbits == 32 ==> f == Some(Single)
    ensures pixeltype == Some("FLOAT") && nbits != 32 ==> f == Some(Double)
    ensures pixeltype !in {Some("SIGNEDINT"), Some("UNSIGNEDINT"), Some("FLOAT")} ==> f == None
  {
    if pixeltype == Some("SIGNEDINT") then Some(SignedInt(nbits))
    else if pixeltype == Some("UNSIGNEDINT") then Some(UnsignedInt(nbits))
    else if pixeltype == Some("FLOAT") then Some(if nbits == 32 then Single else Double)
    else None
  }

  /** The fields `read_header_info` dereferences unconditionally. */
  datatype Field = Rows | Cols | Bands | Bits | UlxMap | UlyMap | XDim | YDim

  /** The label each field is searched for. */
  function Key(f: Field): string {
    match f
    case Rows => "NROWS"
    case Cols => "NCOLS"
    case Bands => "NBANDS"
    case Bits => "NBITS"
    case UlxMap => "ULXMAP"
    case UlyMap => "ULYMAP"
    case XDim => "XDIM"
    case YDim => "YDIM"
  }

  /** The captured group of each field: `(\d+)` for the geometry, the decimal
      pattern for the ESRI origin and pixel size. */
  function FieldToken(f: Field): Token {
    if f in {Rows, Cols, Bands, Bits} then Digits else Decimal
  }

  /** The mandatory fields, in the order the source dereferences them. */
  function MandatoryFields(esri: bool): seq<Field> {
    [Rows, Cols, Bands, Bits] + if esri then [UlxMap, UlyMap, XDim, YDim] else []
  }

  /** A mandatory field's search. */
  function Search(s: string, f: Field): Option<string> {
    Find(s, Key(f), FieldToken(f))
  }

  /** The `.group(1)` calls on the mandatory searches, made in order: the
      first search that found nothing raises. */
  function RequireAll(s: string, fields: seq<Field>): (r: Result<seq<string>, ParseError>)
    ensures r.Success? <==> forall i :: 0 <= i < |fields| ==> Search(s, fields[i]).Some?
    ensures r.Success? ==>
              && |r.value| == |fields|
              && (forall i :: 0 <= i < |fields| ==> Search(s, fields[i]) == Some(r.value[i]))
              && (forall i :: 0 <= i < |fields| ==> InToken(FieldToken(fields[i]), r.value[i]))
    ensures r.Failure? ==>
              exists i :: 0 <= i < |fields| && r.error == MissingField(Key(fields[i])) &&
                          Search(s, fields[i]).None? &&
                          forall j :: 0 <= j < i ==> Search(s, fields[j]).Some?
  {
    if |fields| == 0 then Success([])
    else
      var t :- Required(s, Key(fields[0]), FieldToken(fields[0]));
      var rest :- RequireAll(s, fields[1..]);
      Success([t] + rest)
  }

  /** `int()` of the capture of field `f` is `v`. */
  predicate IntFieldIs(s: string, f: Field, v: nat) {
    && Search(s, f).Some?
    && AllOf(Search(s, f).value, IsDigit)
    && DigitsValue(Search(s, f).value) == v
  }

  /** Every field `read_header_info` must find for the dialect of `s`. */
  predicate MandatoryFieldsPresent(s: string) {
    var fields := MandatoryFields(Occurs(s, "ULXMAP"));
    forall i :: 0 <= i < |fields| ==> Search(s, fields[i]).Some?
  }

  /** `read_header_info`: the fields are searched in the source's order and
      the first mandatory one that is missing aborts the parse. */
  function ReadHeaderInfo(s: string): (r: Result<HeaderInfo, ParseError>)
    ensures r.Success? <==> MandatoryFieldsPresent(s)
    ensures r.Success? ==> r.value.nbyts == r.value.nbits / 8
    ensures r.Success? ==> (r.value.biltyp.Esri? <==> exists j :: 0 <= j <= |s| && "ULXMAP" <= s[j..])
    ensures r.Success? && r.value.biltyp.Erdas? ==> r.value.fmt == Some(Single)
    ensures r.Success? && r.value.biltyp.Esri? ==>
              r.value.fmt == EsriFormat(Find(s, "PIXELTYPE", Word), r.value.nbits)
  {
    var bytord := ByteOrder(s);
    var nodata := Find(s, "NODATA", Decimal);
    var esri := Occurs(s, "ULXMAP");
    // The searches that cannot raise are hoisted; the dereferenced ones
    // keep their order, so the same field is reported missing.
    var caps :- RequireAll(s, MandatoryFields(esri));
    var nbits := DigitsValue(caps[3]);
    var nbyts := nbits / 8;
    var rows, cols, bands := DigitsValue(caps[0]), DigitsValue(caps[1]), DigitsValue(caps[2]);
    if esri then
      var fmt := EsriFormat(Find(s, "PIXELTYPE", Word), nbits);
      Success(HeaderInfo(bytord, rows, cols, bands, nodata, nbits, nbyts,
                         Esri(caps[4], caps[5], caps[6], caps[7]), fmt))
    else
      Success(HeaderInfo(bytord, rows, cols, bands, nodata, nbits, nbyts, Erdas, Some(Single)))
  }

  /** `bilfile[:-3] + 'hdr'`; Python's slice keeps nothing of a path shorter
      than three characters. */
  function HeaderPath(bilfile: string): (h: string)
    ensures |h| == (if |bilfile| >= 3 then |bilfile| else 3)
    ensures h[..|h| - 3] <= bilfile
    ensures h[|h| - 3..] == "hdr"
  {
    var keep := if |bilfile| >= 3 then |bilfile| - 3 else 0;
    bilfile[..keep] + "hdr"
  }

  /** Each geometry field of a parsed header is `int()` of the capture of
      the leftmost match of its pattern; `nodata` is the leftmost decimal
      capture after `NODATA`, if any. */
  lemma HeaderGeometryFields(s: string)
    requires ReadHeaderInfo(s).Success?
    ensures var h := ReadHeaderInfo(s).value;
            && h.bytord == ByteOrder(s)
            && IntFieldIs(s, Rows, h.r)
            && IntFieldIs(s, Cols, h.c)
            && IntFieldIs(s, Bands, h.bands)
            && IntFieldIs(s, Bits, h.nbits)
            && h.nodata == Find(s, "NODATA", Decimal)
  {
    var fields := MandatoryFields(Occurs(s, "ULXMAP"));
    assert fields[0] == Rows && fields[1] == Cols && fields[2] == Bands && fields[3] == Bits;
    var caps := RequireAll(s, fields).value;
    assert Search(s, Rows) == Some(caps[0]) && Search(s, Cols) == Some(caps[1]);
    assert Search(s, Bands) == Some(caps[2]) && Search(s, Bits) == Some(caps[3]);
    assert AllOf(caps[0], IsDigit) && AllOf(caps[1], IsDigit);
    assert AllOf(caps[2], IsDigit) && AllOf(caps[3], IsDigit);
  }

  /** The ESRI origin and pixel size are the leftmost decimal captures after
      their labels, kept as text. */
  lemma HeaderOriginFields(s: string)
    requires ReadHeaderInfo(s).Success? && ReadHeaderInfo(s).value.biltyp.Esri?
    ensures var d := ReadHeaderInfo(s).value.biltyp;
            && Search(s, UlxMap) == Some(d.ulx)
            && Search(s, UlyMap) == Some(d.uly)
            && Search(s, XDim) == Some(d.pxszx)
            && Search(s, YDim) == Some(d.pxszy)
  {
    var fields := MandatoryFields(true);
    var caps := RequireAll(s, fields).value;
    assert fields[4] == UlxMap && fields[5] == UlyMap && fields[6] == XDim && fields[7] == YDim;
    assert Search(s, UlxMap) == Some(caps[4]) && Search(s, UlyMap) == Some(caps[5]);
    assert Search(s, XDim) == Some(caps[6]) && Search(s, YDim) == Some(caps[7]);
  }

  /** Applying the rule to a header path gives the same path back. */
  lemma HeaderPathIdempotent(bilfile: string)
    ensures HeaderPath(HeaderPath(bilfile)) == HeaderPath(bilfile)
  {
    var h := HeaderPath(bilfile);
    assert h[..|h| - 3] + "hdr" == h;
  }

  /** For a `.bil` raster the header is the sibling `.hdr` file. */
  lemma HeaderPathSwapsExtension(stem: string)
    ensures HeaderPath(stem + ".bil") == stem + ".hdr"
  {
    assert (stem + ".bil")[..|stem| + 1] == stem + ".";
    assert stem + "." + "hdr" == stem + ".hdr";
  }

  /** The numpy dtype name the source stores under `'fmt'`
      (`f"int{nbits}"`, `f"uint{nbits}"`, `'single'`, `'double'`). */
  function FormatName(f: SampleFormat): string {
    match f
    case SignedInt(b) => "int" + NatToDecimal(b)
    case UnsignedInt(b) => "uint" + NatToDecimal(b)
    case Single => "single"
    case Double => "double"
  }

  /** Distinct formats have distinct dtype names, so the name selects the
      decoding unambiguously. */
  lemma FormatNameInjective(f: SampleFormat, g: SampleFormat)
    requires FormatName(f) == FormatName(g)
    ensures f == g
  {
    var n, m := FormatName(f), FormatName(g);
    assert n[0] == m[0];
    match f
    case SignedInt(a) =>
      assert g.SignedInt?;
      assert n[3..] == NatToDecimal(a) && m[3..] == NatToDecimal(g.bits);
      NatToDecimalInjective(a, g.bits);
    case UnsignedInt(a) =>
      assert g.UnsignedInt?;
      assert n[4..] == NatToDecimal(a) && m[4..] == NatToDecimal(g.bits);
      NatToDecimalInjective(a, g.bits);
    case Single =>
    case Double =>
  }

  /** The decimal pattern accepts a sign only before a point: `NODATA` with a
      signed integer captures nothing. */
  lemma NodataSignedIntegerIgnored(ws: string, sign: char, digits: string)
    requires IsRun(ws, IsSpace) && IsSign(sign) && AllOf(digits, IsDigit)
    ensures Find("NODATA" + ws + [sign] + digits, "NODATA", Decimal) == None
  {
    var s := "NODATA" + ws + [sign] + digits;
    SignedIntegerNoMatchAtKey(ws, sign, digits);
    SignedIntegerNoLaterKey(ws, sign, digits);
    assert forall j :: 0 <= j <= |s| ==> MatchAt(s, j, "NODATA", Decimal).None?;
    FindLeftmost(s, "NODATA", Decimal);
  }

  lemma SignedIntegerNoMatchAtKey(ws: string, sign: char, digits: string)
    requires IsRun(ws, IsSpace) && IsSign(sign) && AllOf(digits, IsDigit)
    ensures MatchAt("NODATA" + ws + [sign] + digits, 0, "NODATA", Decimal) == None
  {
    var s := "NODATA" + ws + [sign] + digits;
    var w := 6 + |ws|;
    assert s[w] == sign;
    assert RunEnd(s, 6, IsSpace) == w by {
      forall j | 6 <= j < w ensures IsSpace(s[j]) {
        assert s[j] == ws[j - 6];
      }
    }
    forall j | w + 1 <= j < |s| ensures IsDigit(s[j]) {
      assert s[j] == digits[j - w - 1];
    }
    assert SignEnd(s, w) == w + 1;
    assert RunEnd(s, w + 1, IsDigit) == |s|;
    assert RunEnd(s, w, IsDigit) == w;
    assert DecimalAt(s, w) == None;
  }

  lemma SignedIntegerNoLaterKey(ws: string, sign: char, digits: string)
    requires IsRun(ws, IsSpace) && IsSign(sign) && AllOf(digits, IsDigit)
    ensures var s := "NODATA" + ws + [sign] + digits;
            forall j :: 1 <= j <= |s| ==> !("NODATA" <= s[j..])
  {
    var s := "NODATA" + ws + [sign] + digits;
    var w := 6 + |ws|;
    forall j | 1 <= j < |s| ensures s[j] != 'N' {
      if j < 6 {
        assert s[j] == "NODATA"[j];
      } else if j < w {
        assert s[j] == ws[j - 6];
      } else if j > w {
        assert s[j] == digits[j - w - 1];
      }
    }
    forall j | 1 <= j <= |s| ensures !("NODATA" <= s[j..]) {
      if j < |s| {
        assert s[j..][0] == s[j];
      }
    }
  }

  /** A decimal literal after `NODATA` and whitespace is captured whole:
      `5`, `3.5` and `-3.5` all are. */
  lemma NodataDecimalCaptured(ws: string, t: string)
    requires IsRun(ws, IsSpace) && IsDecimal(t)
    ensures Find("NODATA" + ws + t, "NODATA", Decimal) == Some(t)
  {
    var s := "NODATA" + ws + t;
    var w := 6 + |ws|;
    assert s[..6] == "NODATA";
    assert RunEnd(s, 6, IsSpace) == w by {
      forall j | 6 <= j < w ensures IsSpace(s[j]) {
        assert s[j] == ws[j - 6];
      }
      assert s[w] == t[0];
      DecimalStartsOutsideSpace(t);
    }
    assert TokenAt(s, w, Decimal) == Some(t) by {
      WholeTokenCaptured(s, w, t);
    }
    assert MatchAt(s, 0, "NODATA", Decimal) == Some(t);
    FindLeftmost(s, "NODATA", Decimal);
  }

  /** A decimal literal starts with a sign, a digit or a point. */
  lemma DecimalStartsOutsideSpace(t: string)
    requires IsDecimal(t)
    ensures !IsSpace(t[0])
  {
    if !IsRun(t, IsDigit) {
      var p :| 0 <= p < |t| && FractionPoint(t, p);
      if SignLen(t) == 0 && p > 0 {
        assert t[0] == t[SignLen(t)..p][0];
      }
    }
  }

  /** A decimal literal that runs to the end of the text is the token there. */
  lemma WholeTokenCaptured(s: string, w: nat, t: string)
    requires w <= |s| && s[w..] == t && IsDecimal(t)
    ensures TokenAt(s, w, Decimal) == Some(t)
  {
    assert s[w..|s|] == t;
    var r := TokenAt(s, w, Decimal);
    assert r.Some?;
    assert |r.value| == |t|;
  }

  /** `NODATA -3.5` yields the whole literal; `NODATA -9999` yields nothing. */
  lemma NodataSignedFractionExample()
    ensures Find("NODATA -3.5", "NODATA", Decimal) == Some("-3.5")
  {
    var g := "-3.5";
    assert FractionPoint(g, 2) by {
      assert SignLen(g) == 1;
      assert g[1..2] == "3" && g[3..] == "5";
    }
    assert IsRun(" ", IsSpace);
    assert "NODATA -3.5" == "NODATA" + " " + g;
    NodataDecimalCaptured(" ", g);
  }

  lemma NodataSignedIntegerExample()
    ensures Find("NODATA -9999", "NODATA", Decimal) == None
  {
    assert IsRun(" ", IsSpace);
    assert AllOf("9999", IsDigit);
    NodataSignedIntegerIgnored(" ", '-', "9999");
    assert "NODATA -9999" == "NODATA" + " " + ['-'] + "9999";
  }
}

=== FILE: rewrite.dfy ===
/** The header of the stream map: the flow-accumulation header copied line by
    line, with the lines that describe the sample format replaced by fixed
    lines for an 8-bit unsigned raster. Lines are what Python's text-mode file
    iteration yields: each keeps its `\n`, and the last may lack one. */
module HeaderRewrite {
  import opened Wrappers
  import opened Text
  import opened Stream

  /** The prefixes checked, in the order the `if`/`elif` chain checks them. */
  const Triggers: seq<string> :=
    ["NBIT", "BANDROWBYTE", "TOTALROWBYTE", "PIXELTYP", "NODATA"]

  /** The line written for each trigger. The row byte counts are the fixed
      value 2703, whatever the raster's width. */
  const Replacements: seq<string> :=
    ["NBITS          8\n", "BANDROWBYTES   2703\n", "TOTALROWBYTES  2703\n",
     "PIXELTYPE      UNSIGNEDINT\n", "NODATA         0\n"]

  /** The first trigger at or after index `k` that `line` starts with. */
  function FirstTrigger(line: string, k: nat): (r: Option<nat>)
    requires k <= |Triggers|
    ensures r.Some? ==> k <= r.value < |Triggers| && Triggers[r.value] <= line
    ensures r.Some? ==> forall i :: k <= i < r.value ==> !(Triggers[i] <= line)
    ensures r.None? ==> forall i :: k <= i < |Triggers| ==> !(Triggers[i] <= line)
    decreases |Triggers| - k
  {
    if k == |Triggers| then None
    else if Triggers[k] <= line then Some(k)
    else FirstTrigger(line, k + 1)
  }

  /** The rewrite of one header line: the replacement of the first trigger
      the line starts with, the line itself when it starts with none. The
      rewritten line starts with the same first trigger as the original. */
  function RewriteLine(line: string): (r: string)
    ensures FirstTrigger(r, 0) == FirstTrigger(line, 0)
    ensures FirstTrigger(line, 0).Some? ==> r == Replacements[FirstTrigger(line, 0).value]
    ensures FirstTrigger(line, 0).None? ==> r == line
  {
    match FirstTrigger(line, 0)
    case Some(k) =>
      ReplacementsKeepTrigger(k);
      Replacements[k]
    case None => line
  }

  /** The `if`/`elif` chain: a line that starts with trigger `i` and with no
      trigger checked before it becomes replacement `i`; a line that starts
      with no trigger is copied. */
  lemma RewriteLineByTable(line: string)
    ensures forall i :: 0 <= i < |Triggers| && Triggers[i] <= line &&
                        (forall j :: 0 <= j < i ==> !(Triggers[j] <= line)) ==>
                          RewriteLine(line) == Replacements[i]
    ensures (forall i :: 0 <= i < |Triggers| ==> !(Triggers[i] <= line)) ==> RewriteLine(line) == line
  {
    forall i | 0 <= i < |Triggers| && Triggers[i] <= line &&
               (forall j :: 0 <= j < i ==> !(Triggers[j] <= line))
      ensures RewriteLine(line) == Replacements[i]
    {
      var f := FirstTrigger(line, 0);
      assert f.Some?;
      assert Triggers[f.value] <= line;
      assert f.value == i;
    }
  }

  /** Each replacement starts with the trigger that produced it and with no
      trigger checked before it. */
  lemma ReplacementsKeepTrigger(k: nat)
    requires k < |Triggers|
    ensures FirstTrigger(Replacements[k], 0) == Some(k)
  {
    var r := Replacements[k];
    assert Triggers[k] == r[..|Triggers[k]|];
    var heads := FirstChars(Triggers);
    assert heads == "NBTPN";
    forall i | 0 <= i < k ensures !(Triggers[i] <= r) {
      if k == 4 && i == 0 {
        DiffersAt(Triggers[i], r, 1);
      } else {
        assert r[0] == Triggers[k][0];
        assert heads[i] != heads[k];
        DiffersAt(Triggers[i], r, 0);
      }
    }
  }

  /** Strings that differ at a position both have are not prefixes of one
      another. */
  lemma DiffersAt(a: string, b: string, j: nat)
    requires j < |a| && j < |b| && a[j] != b[j]
    ensures !(a <= b)
  {
    if |a| <= |b| {
      assert b[..|a|][j] == b[j];
    }
  }

  function FirstChars(ts: seq<string>): (h: string)
    requires forall i :: 0 <= i < |ts| ==> |ts[i]| > 0
    ensures |h| == |ts|
    ensures forall i :: 0 <= i < |ts| ==> h[i] == ts[i][0]
  {
    seq(|ts|, i requires 0 <= i < |ts| => ts[i][0])
  }

  /** Rewriting a rewritten line changes nothing. */
  lemma RewriteLineIdempotent(line: string)
    ensures RewriteLine(RewriteLine(line)) == RewriteLine(line)
  {
    var r := RewriteLine(line);
    match FirstTrigger(line, 0)
    case Some(k) =>
      assert FirstTrigger(r, 0) == Some(k);
    case None =>
  }

  predicate NotNewline(ch: char) {
    ch != '\n'
  }

  /** One line as file iteration yields it: non-empty, with no `\n` except
      possibly the last character. */
  predicate IsLine(l: string) {
    |l| > 0 && forall i :: 0 <= i < |l| - 1 ==> l[i] != '\n'
  }

  predicate EndsLine(l: string) {
    |l| > 0 && l[|l| - 1] == '\n'
  }

  /** A sequence of lines some text splits into: every line but the last
      ends with `\n`. */
  predicate IsLines(ls: seq<string>) {
    && (forall k :: 0 <= k < |ls| ==> IsLine(ls[k]))
    && (forall k :: 0 <= k < |ls| - 1 ==> EndsLine(ls[k]))
  }

  /** Length of the first line of `t`: through the first `\n`, or all of `t`. */
  function LineEnd(t: string): (e: nat)
    requires |t| > 0
    ensures 0 < e <= |t|
    ensures IsLine(t[..e])
    ensures e < |t| ==> EndsLine(t[..e])
  {
    var n := RunEnd(t, 0, NotNewline);
    if n < |t| then n + 1 else n
  }

  /** Python's `for line in f` on a text file. */
  function SplitLines(t: string): seq<string>
    decreases |t|
  {
    if |t| == 0 then []
    else
      var e := LineEnd(t);
      [t[..e]] + SplitLines(t[e..])
  }

  lemma FlattenCons<T>(x: seq<T>, xs: seq<seq<T>>)
    ensures Flatten([x] + xs) == x + Flatten(xs)
  {
    FlattenAppend([x], xs);
    assert [x][..0] == [];
  }

  /** Splitting loses nothing: the lines concatenate back to the text. */
  lemma {:induction false} SplitLinesJoin(t: string)
    ensures Flatten(SplitLines(t)) == t
    decreases |t|
  {
    if |t| > 0 {
      var e := LineEnd(t);
      FlattenCons(t[..e], SplitLines(t[e..]));
      SplitLinesJoin(t[e..]);
      assert t[..e] + t[e..] == t;
    }
  }

  /** Splitting yields well-formed lines. */
  lemma {:induction false} SplitLinesAreLines(t: string)
    ensures IsLines(SplitLines(t))
    decreases |t|
  {
    if |t| > 0 {
      var e := LineEnd(t);
      SplitLinesAreLines(t[e..]);
      var ls := SplitLines(t);
      assert ls[0] == t[..e];
      assert forall k :: 1 <= k < |ls| ==> ls[k] == SplitLines(t[e..])[k - 1];
      if e == |t| {
        assert t[e..] == [];
      }
    }
  }

  /** The first line is recovered from a line followed by more text. */
  lemma LineEndOfLine(l: string, rest: string)
    requires IsLine(l)
    requires EndsLine(l) || |rest| == 0
    ensures LineEnd(l + rest) == |l|
  {
    var t := l + rest;
    var n := RunEnd(t, 0, NotNewline);
    forall i | 0 <= i < |l| - 1 ensures NotNewline(t[i]) {
      assert t[i] == l[i];
    }
    if EndsLine(l) {
      assert t[|l| - 1] == '\n';
      assert n == |l| - 1;
    } else {
      assert t == l;
      assert !NotNewline(t[|l| - 1]) ==> false;
      assert n == |l|;
    }
  }

  /** Joining well-formed lines and splitting again gives the same lines. */
  lemma {:induction false} JoinSplitLines(ls: seq<string>)
    requires IsLines(ls)
    ensures SplitLines(Flatten(ls)) == ls
    decreases |ls|
  {
    if |ls| > 0 {
      var rest := ls[1..];
      assert ls == [ls[0]] + rest;
      FlattenCons(ls[0], rest);
      var t := Flatten(ls);
      assert IsLines(rest);
      if |rest| > 0 {
        assert EndsLine(ls[0]);
      } else {
        assert Flatten(rest) == [];
      }
      LineEndOfLine(ls[0], Flatten(rest));
      assert t[..|ls[0]|] == ls[0];
      assert t[|ls[0]|..] == Flatten(rest);
      JoinSplitLines(rest);
    }
  }

  /** The rewrite of every line, in order. */
  function RewriteLines(ls: seq<string>): (out: seq<string>)
    ensures |out| == |ls|
  {
    seq(|ls|, i requires 0 <= i < |ls| => RewriteLine(ls[i]))
  }

  /** Each replacement is one complete line. */
  lemma ReplacementIsLine(k: nat)
    requires k < |Replacements|
    ensures IsLine(Replacements[k]) && EndsLine(Replacements[k])
  {
    var r := Replacements[k];
    forall i | 0 <= i < |r| - 1 ensures r[i] != '\n' {
      assert r[i] in r[..|r| - 1];
    }
  }

  lemma RewriteKeepsLine(l: string, last: bool)
    requires IsLine(l) && (last || EndsLine(l))
    ensures IsLine(RewriteLine(l)) && (last || EndsLine(RewriteLine(l)))
  {
    match FirstTrigger(l, 0)
    case Some(k) => ReplacementIsLine(k);
    case None =>
  }

  lemma RewriteLinesAreLines(ls: seq<string>)
    requires IsLines(ls)
    ensures IsLines(RewriteLines(ls))
  {
    var out := RewriteLines(ls);
    forall k | 0 <= k < |ls|
      ensures IsLine(out[k]) && (k == |ls| - 1 || EndsLine(out[k]))
    {
      RewriteKeepsLine(ls[k], k == |ls| - 1);
    }
  }

  /** The rewritten header text: it has exactly one line per line of the
      original, in the same order, each the rewrite of the original line. */
  function RewriteText(t: string): (r: string)
    ensures SplitLines(r) == RewriteLines(SplitLines(t))
  {
    SplitLinesAreLines(t);
    RewriteLinesAreLines(SplitLines(t));
    JoinSplitLines(RewriteLines(SplitLines(t)));
    Flatten(RewriteLines(SplitLines(t)))
  }

  /** Rewriting the rewritten header again changes nothing. */
  lemma RewriteTextIdempotent(t: string)
    ensures RewriteText(RewriteText(t)) == RewriteText(t)
  {
    var ls := SplitLines(t);
    var out := RewriteLines(ls);
    forall i | 0 <= i < |out| ensures RewriteLine(out[i]) == out[i] {
      RewriteLineIdempotent(ls[i]);
    }
    assert RewriteLines(out) == out;
  }

  /** A header without any trigger line is copied unchanged. */
  lemma RewriteTextUntouched(t: string)
    requires forall l :: l in SplitLines(t) ==> FirstTrigger(l, 0).None?
    ensures RewriteText(t) == t
  {
    var ls := SplitLines(t);
    assert RewriteLines(ls) == ls;
    SplitLinesJoin(t);
  }
}

=== FILE: scan.dfy ===
/** `scanbil`: one pass over a raster in chunks of rows, keeping the running
    minimum, the running maximum and a "second minimum" (the smallest sample
    seen above the running minimum), then deciding the background value. */
module Scan {
  import opened Wrappers
  import opened Stream
  import opened BilHeader

  /** A sample value, or one of the seeds `-np.finfo(float).max` and
      `np.finfo(float).max`, which no integer sample reaches. */
  datatype Ext = NegHuge | Num(v: int) | PosHuge

  predicate Le(a: Ext, b: Ext) {
    match (a, b)
    case (NegHuge, _) => true
    case (_, PosHuge) => true
    case (Num(x), Num(y)) => x <= y
    case _ => false
  }

  function MinE(a: Ext, b: Ext): Ext {
    if Le(a, b) then a else b
  }

  function MaxE(a: Ext, b: Ext): Ext {
    if Le(a, b) then b else a
  }

  /** `x > m` for a sample `x`. */
  predicate Exceeds(x: int, m: Ext) {
    match m
    case NegHuge => true
    case Num(v) => x > v
    case PosHuge => false
  }

  /** The smallest sample of `s`; `PosHuge` when there is none. */
  function MinOf(s: seq<int>): (m: Ext)
    ensures m == PosHuge <==> |s| == 0
    ensures m != NegHuge
    ensures m.Num? ==> m.v in s && forall x :: x in s ==> m.v <= x
  {
    if |s| == 0 then PosHuge
    else
      var init := s[..|s| - 1];
      assert forall x :: x in s ==> x in init || x == s[|s| - 1];
      MinE(MinOf(init), Num(s[|s| - 1]))
  }

  /** The largest sample of `s`; `NegHuge` when there is none. */
  function MaxOf(s: seq<int>): (m: Ext)
    ensures m == NegHuge <==> |s| == 0
    ensures m != PosHuge
    ensures m.Num? ==> m.v in s && forall x :: x in s ==> x <= m.v
  {
    if |s| == 0 then NegHuge
    else
      var init := s[..|s| - 1];
      assert forall x :: x in s ==> x in init || x == s[|s| - 1];
      MaxE(MaxOf(init), Num(s[|s| - 1]))
  }

  /** `dat[dat > m]`: the samples above `m`, each as often as it occurs. */
  function Above(s: seq<int>, m: Ext): (r: seq<int>)
    ensures forall x :: x in r <==> x in s && Exceeds(x, m)
  {
    if |s| == 0 then []
    else
      var init := s[..|s| - 1];
      assert s == init + [s[|s| - 1]];
      assert forall x :: x in s ==> x in init || x == s[|s| - 1];
      Above(init, m) + if Exceeds(s[|s| - 1], m) then [s[|s| - 1]] else []
  }

  /** `dat[dat > m]` keeps every sample above `m` as often as it occurs and
      drops the others. */
  lemma {:induction false} AboveKeepsCount(s: seq<int>, m: Ext)
    ensures forall x :: multiset(Above(s, m))[x] == if Exceeds(x, m) then multiset(s)[x] else 0
  {
    if |s| > 0 {
      var init := s[..|s| - 1];
      assert s == init + [s[|s| - 1]];
      AboveKeepsCount(init, m);
    }
  }

  /** The running values `mn`, `mx` and `mn2`. */
  datatype ScanState = ScanState(mn: Ext, mx: Ext, mn2: Ext)

  const Seed := ScanState(PosHuge, NegHuge, PosHuge)

  /** The loop body for one chunk: the minimum and maximum are updated first,
      and `mn2` then looks at the chunk's samples above the updated minimum. */
  function Step(st: ScanState, dat: seq<int>): ScanState
    requires |dat| > 0
  {
    var mn := MinE(st.mn, MinOf(dat));
    var mx := MaxE(st.mx, MaxOf(dat));
    var above := Above(dat, mn);
    var mn2 := if |above| > 0 then MinE(st.mn2, MinOf(above)) else st.mn2;
    ScanState(mn, mx, mn2)
  }

  /** The first chunk that read nothing, searching from chunk `i` on. */
  function FirstEmpty(chunks: seq<seq<int>>, i: nat): (r: Option<nat>)
    requires i <= |chunks|
    ensures r.None? <==> forall k :: i <= k < |chunks| ==> |chunks[k]| > 0
    ensures r.Some? ==>
              && i <= r.value < |chunks| && |chunks[r.value]| == 0
              && forall k :: i <= k < r.value ==> |chunks[k]| > 0
    decreases |chunks| - i
  {
    if i == |chunks| then None
    else if |chunks[i]| == 0 then Some(i)
    else FirstEmpty(chunks, i + 1)
  }

  predicate AllRead(chunks: seq<seq<int>>) {
    forall k :: 0 <= k < |chunks| ==> |chunks[k]| > 0
  }

  /** The loop body applied to every chunk in order. */
  function Fold(chunks: seq<seq<int>>): ScanState
    requires AllRead(chunks)
  {
    if |chunks| == 0 then Seed
    else
      var n := |chunks| - 1;
      assert forall k :: 0 <= k < n ==> chunks[..n][k] == chunks[k];
      Step(Fold(chunks[..n]), chunks[n])
  }

  /** The scan over the chunks read. `np.min` of an empty chunk raises, so
      the scan fails at the first chunk that read nothing; otherwise it is
      the fold. */
  function ScanReads(chunks: seq<seq<int>>): Result<ScanState, nat> {
    match FirstEmpty(chunks, 0)
    case Some(k) => Failure(k)
    case None => Success(Fold(chunks))
  }

  /** The scan succeeds exactly when every chunk read something; otherwise
      it reports the first chunk that read nothing. */
  lemma ScanReadsOutcome(chunks: seq<seq<int>>)
    ensures ScanReads(chunks).Success? <==> AllRead(chunks)
    ensures ScanReads(chunks).Failure? ==>
              var e := ScanReads(chunks).error;
              && e < |chunks| && |chunks[e]| == 0
              && forall k :: 0 <= k < e ==> |chunks[k]| > 0
  {
  }

  /** The samples that are eligible for `mn2`: those of each chunk that lie
      above the minimum of everything read up to and including that chunk. */
  function Candidates(chunks: seq<seq<int>>): seq<int> {
    if |chunks| == 0 then []
    else Candidates(chunks[..|chunks| - 1]) + Above(chunks[|chunks| - 1], MinOf(Flatten(chunks)))
  }

  lemma MinOfUnique(s: seq<int>, m: Ext)
    requires m == PosHuge <==> |s| == 0
    requires m != NegHuge
    requires m.Num? ==> m.v in s && forall x :: x in s ==> m.v <= x
    ensures MinOf(s) == m
  {
  }

  lemma MaxOfUnique(s: seq<int>, m: Ext)
    requires m == NegHuge <==> |s| == 0
    requires m != PosHuge
    requires m.Num? ==> m.v in s && forall x :: x in s ==> x <= m.v
    ensures MaxOf(s) == m
  {
  }

  lemma MinOfAppend(a: seq<int>, b: seq<int>)
    ensures MinOf(a + b) == MinE(MinOf(a), MinOf(b))
  {
    assert forall x :: x in a + b <==> x in a || x in b;
    MinOfUnique(a + b, MinE(MinOf(a), MinOf(b)));
  }

  lemma MaxOfAppend(a: seq<int>, b: seq<int>)
    ensures MaxOf(a + b) == MaxE(MaxOf(a), MaxOf(b))
  {
    assert forall x :: x in a + b <==> x in a || x in b;
    MaxOfUnique(a + b, MaxE(MaxOf(a), MaxOf(b)));
  }

  /** One step from the reference values of the samples `seen` so far and
      the candidates `cands` so far gives the reference values after `dat`. */
  lemma StepSpec(seen: seq<int>, cands: seq<int>, dat: seq<int>)
    requires |dat| > 0
    ensures Step(ScanState(MinOf(seen), MaxOf(seen), MinOf(cands)), dat) ==
            ScanState(MinOf(seen + dat), MaxOf(seen + dat),
                      MinOf(cands + Above(dat, MinOf(seen + dat))))
  {
    MinOfAppend(seen, dat);
    MaxOfAppend(seen, dat);
    var above := Above(dat, MinOf(seen + dat));
    MinOfAppend(cands, above);
    if |above| == 0 {
      assert cands + above == cands;
    }
  }

  /** The fold computes its reference values: `mn` and `mx` are the minimum
      and maximum of every sample read, and `mn2` is the smallest candidate
      (`PosHuge` when there is none). */
  lemma {:induction false} ScanReadsSpec(chunks: seq<seq<int>>)
    requires ScanReads(chunks).Success?
    ensures ScanReads(chunks).value ==
            ScanState(MinOf(Flatten(chunks)), MaxOf(Flatten(chunks)), MinOf(Candidates(chunks)))
  {
    FoldSpec(chunks);
  }

  lemma {:induction false} FoldSpec(chunks: seq<seq<int>>)
    requires AllRead(chunks)
    ensures Fold(chunks) ==
            ScanState(MinOf(Flatten(chunks)), MaxOf(Flatten(chunks)), MinOf(Candidates(chunks)))
  {
    if |chunks| > 0 {
      var n := |chunks| - 1;
      var prev := chunks[..n];
      assert AllRead(prev) by {
        forall k | 0 <= k < n ensures |prev[k]| > 0 {
          assert prev[k] == chunks[k];
        }
      }
      FoldSpec(prev);
      StepSpec(Flatten(prev), Candidates(prev), chunks[n]);
    }
  }

  lemma ExceedsLower(x: int, lo: Ext, m: Ext)
    requires Le(lo, m) && Exceeds(x, m)
    ensures Exceeds(x, lo)
  {
  }

  /** Every candidate is a sample read, above the final minimum. */
  lemma {:induction false} CandidatesAboveMin(chunks: seq<seq<int>>)
    ensures forall x :: x in Candidates(chunks) ==>
              x in Flatten(chunks) && Exceeds(x, MinOf(Flatten(chunks)))
  {
    if |chunks| > 0 {
      var n := |chunks| - 1;
      var prev := chunks[..n];
      CandidatesAboveMin(prev);
      assert Flatten(chunks) == Flatten(prev) + chunks[n];
      MinOfAppend(Flatten(prev), chunks[n]);
      var m := MinOf(Flatten(chunks));
      forall x | x in Candidates(chunks)
        ensures x in Flatten(chunks) && Exceeds(x, m)
      {
        if x in Candidates(prev) {
          ExceedsLower(x, m, MinOf(Flatten(prev)));
        }
      }
    }
  }

  lemma MinOfSubset(a: seq<int>, b: seq<int>)
    requires forall x :: x in a ==> x in b
    ensures Le(MinOf(b), MinOf(a))
  {
  }

  /** `mn2` stays at its seed exactly when no sample was ever above the
      running minimum. Once updated, it lies strictly above the final
      minimum, and it is never below the smallest sample above the final
      minimum (it can be larger: see `Mn2OvershootExample`). */
  lemma Mn2Bounds(chunks: seq<seq<int>>)
    requires ScanReads(chunks).Success?
    ensures var st := ScanReads(chunks).value;
            && (st.mn2 == PosHuge <==> |Candidates(chunks)| == 0)
            && (st.mn2.Num? ==> Exceeds(st.mn2.v, st.mn))
            && Le(MinOf(Above(Flatten(chunks), st.mn)), st.mn2)
  {
    ScanReadsSpec(chunks);
    CandidatesAboveMin(chunks);
    MinOfSubset(Candidates(chunks), Above(Flatten(chunks), MinOf(Flatten(chunks))));
  }

  // This example and `TrailingReadCounterexample` take their inputs as
  // parameters fixed by `requires` rather than writing the literals in the
  // `ensures`: with literal arguments the verifier unrolls `Fold` and `Reads`
  // eagerly, and the proof becomes far more expensive than the stepwise one.

  /** `mn2` is measured against the running minimum, not the final one: a
      sample read before a smaller minimum appears is never reconsidered.
      With the chunks `[10, 20]` and `[-9999, 15]`, 10 is the smallest sample
      above the minimum, but `mn2` is 15. */
  lemma Mn2OvershootExample(a: seq<int>, b: seq<int>)
    requires a == [10, 20] && b == [-9999, 15]
    ensures ScanReads([a, b]) == Success(ScanState(Num(-9999), Num(20), Num(15)))
    ensures MinOf(Above(a + b, Num(-9999))) == Num(10)
  {
    var chunks := [a, b];
    assert AllRead(chunks) && AllRead([a]);
    ScanReadsOutcome(chunks);
    assert Fold(chunks) == Step(Fold([a]), b) by {
      assert chunks[..1] == [a];
    }
    OvershootFirstChunk(a);
    OvershootSecondChunk(b);
    SmallestAbove(a + b, Num(-9999), 10);
  }

  lemma OvershootFirstChunk(a: seq<int>)
    requires a == [10, 20]
    ensures AllRead([a]) && Fold([a]) == ScanState(Num(10), Num(20), Num(20))
  {
    assert [a][..0] == [];
    MinOfPair(a, 10, 20);
    SmallestAbove(a, Num(10), 20);
  }

  lemma OvershootSecondChunk(b: seq<int>)
    requires b == [-9999, 15]
    ensures Step(ScanState(Num(10), Num(20), Num(20)), b) == ScanState(Num(-9999), Num(20), Num(15))
  {
    MinOfPair(b, -9999, 15);
    SmallestAbove(b, Num(-9999), 15);
  }

  /** The extremes of a two-sample chunk. */
  lemma MinOfPair(s: seq<int>, lo: int, hi: int)
    requires s == [lo, hi] && lo <= hi
    ensures MinOf(s) == Num(lo) && MaxOf(s) == Num(hi)
  {
    MinOfUnique(s, Num(lo));
    MaxOfUnique(s, Num(hi));
  }

  /** `m` is the smallest sample of `s` above `bound`. */
  lemma SmallestAbove(s: seq<int>, bound: Ext, m: int)
    requires m in s && Exceeds(m, bound)
    requires forall x :: x in s && Exceeds(x, bound) ==> m <= x
    ensures MinOf(Above(s, bound)) == Num(m)
  {
    MinOfUnique(Above(s, bound), Num(m));
  }

  /** What `scanbil` returns: the reported minimum, the maximum, and the
      background value (`None` for NaN). */
  datatype Summary = Summary(min: Ext, max: Ext, background: Option<Ext>)

  predicate Positive(m: Ext) {
    match m
    case NegHuge => false
    case Num(v) => v > 0
    case PosHuge => true
  }

  /** The background rule: a raster whose minimum is positive has no
      background; otherwise the minimum is the background and `mn2` is
      reported as the minimum. */
  function Background(st: ScanState): Summary {
    if Positive(st.mn) then Summary(st.mn, st.mx, None)
    else Summary(st.mn2, st.mx, Some(st.mn))
  }

  /** The background rule in terms of the samples read: no background exactly
      when every sample is positive; otherwise the background is the smallest
      sample and the reported minimum, when there is one, lies above it. */
  lemma SummarySpec(chunks: seq<seq<int>>)
    requires ScanReads(chunks).Success?
    ensures var s := Background(ScanReads(chunks).value);
            var all := Flatten(chunks);
            && s.max == MaxOf(all)
            && (s.background.None? <==> forall x :: x in all ==> x > 0)
            && (s.background.None? ==> s.min == MinOf(all))
            && (s.background.Some? ==>
                  && s.background == Some(MinOf(all))
                  && s.min == MinOf(Candidates(chunks))
                  && (s.min.Num? ==> s.min.v > s.background.value.v))
  {
    ScanReadsSpec(chunks);
    Mn2Bounds(chunks);
  }

  /** Which chunk sizes the loop asks for. */
  datatype Plan =
    | AsWritten   // the trailing read asks for `md` samples
    | Corrected   // the trailing read asks for the `md` remaining rows

  /** `dv = rows // 100` reads of `cols*100` samples, then one more read when
      `md = rows - dv*100` is not zero. */
  function ChunkCounts(plan: Plan, rows: nat, cols: nat): (counts: seq<nat>)
    ensures |counts| == rows / 100 + if rows % 100 > 0 then 1 else 0
  {
    var dv := rows / 100;
    var md := rows - dv * 100;
    Repeat(cols * 100, dv) + if md > 0 then [if plan == AsWritten then md else md * cols] else []
  }

  /** The size of each read: `cols*100` samples for each of the `rows div
      100` full chunks, then, when `rows mod 100` is not zero, a trailing
      read of `rows mod 100` samples as written and of `rows mod 100` rows of
      `cols` samples as corrected. */
  lemma ChunkSizes(plan: Plan, rows: nat, cols: nat)
    ensures var counts := ChunkCounts(plan, rows, cols);
            && (forall k :: 0 <= k < rows / 100 ==> counts[k] == cols * 100)
            && (rows % 100 > 0 ==>
                  counts[rows / 100] == if plan == AsWritten then rows % 100 else rows % 100 * cols)
  {
    ChunkRows(rows);
  }

  /** The remainder is `rows mod 100`: whole chunks and the trailing rows add
      up to `rows`. */
  lemma ChunkRows(rows: nat)
    ensures rows / 100 * 100 + (rows - rows / 100 * 100) == rows
    ensures rows - rows / 100 * 100 == rows % 100 < 100
  {
  }

  lemma ChunkCountsSum(plan: Plan, rows: nat, cols: nat)
    ensures var md := rows % 100;
            Sum(ChunkCounts(plan, rows, cols)) ==
            cols * 100 * (rows / 100) + if md == 0 then 0 else if plan == AsWritten then md else md * cols
  {
    var dv := rows / 100;
    var md := rows % 100;
    assert rows - dv * 100 == md;
    SumRepeat(cols * 100, dv);
    var tail: seq<nat> := if md > 0 then [if plan == AsWritten then md else md * cols] else [];
    assert ChunkCounts(plan, rows, cols) == Repeat(cols * 100, dv) + tail;
    SumAppend(Repeat(cols * 100, dv), tail);
    if md > 0 {
      assert tail[..0] == [];
    }
  }

  /** The corrected plan asks for exactly the `rows*cols` samples of the
      raster; the plan as written asks for `(cols - 1) * md` fewer. */
  lemma ChunkTotals(rows: nat, cols: nat)
    ensures Sum(ChunkCounts(Corrected, rows, cols)) == rows * cols
    ensures Sum(ChunkCounts(AsWritten, rows, cols)) + (cols - 1) * (rows % 100) == rows * cols
  {
    var dv := rows / 100;
    var md := rows % 100;
    ChunkCountsSum(Corrected, rows, cols);
    ChunkCountsSum(AsWritten, rows, cols);
    assert rows * cols == cols * 100 * dv + md * cols by {
      RowsSplit(rows, cols);
    }
    assert md + (cols - 1) * md == md * cols by {
      TrailingShortfall(md, cols);
    }
  }

  lemma RowsSplit(rows: nat, cols: nat)
    ensures rows * cols == cols * 100 * (rows / 100) + rows % 100 * cols
  {
    var dv := rows / 100;
    var md := rows % 100;
    assert rows == dv * 100 + md;
    assert (dv * 100 + md) * cols == cols * 100 * dv + md * cols;
  }

  lemma TrailingShortfall(md: nat, cols: nat)
    ensures md + (cols - 1) * md == md * cols
  {
  }

  /** The scan of the raster's samples under a chunk plan. */
  function ScanChunks(plan: Plan, data: seq<int>, rows: nat, cols: nat): Result<ScanState, nat> {
    ScanReads(Reads(data, ChunkCounts(plan, rows, cols)))
  }

  /** Under the corrected plan the scan covers the whole raster: with at
      least `rows*cols` samples and a positive width, it succeeds, and its
      minimum and maximum are those of the first `rows*cols` samples. */
  lemma CorrectedScanCoversRaster(data: seq<int>, rows: nat, cols: nat)
    requires cols > 0 && |data| >= rows * cols
    ensures ScanChunks(Corrected, data, rows, cols).Success?
    ensures var st := ScanChunks(Corrected, data, rows, cols).value;
            st.mn == MinOf(data[..rows * cols]) && st.mx == MaxOf(data[..rows * cols])
  {
    var counts := ChunkCounts(Corrected, rows, cols);
    var chunks := Reads(data, counts);
    ChunkTotals(rows, cols);
    assert AllRead(chunks) by {
      PlannedReadsFilled(Corrected, data, rows, cols);
    }
    ScanReadsOutcome(chunks);
    ScanReadsSpec(chunks);
    assert Position(data, counts) == rows * cols;
    FlattenReads(data, counts);
  }

  /** Every requested chunk size is positive when rows are not empty. */
  lemma ChunkCountsPositive(plan: Plan, rows: nat, cols: nat)
    requires cols > 0
    ensures forall k :: 0 <= k < |ChunkCounts(plan, rows, cols)| ==> ChunkCounts(plan, rows, cols)[k] > 0
  {
    var md := rows % 100;
    if md > 0 {
      MulAtLeast(cols, md);
    }
  }

  /** When the file holds every sample a plan asks for, every read returns
      something. */
  lemma PlannedReadsFilled(plan: Plan, data: seq<int>, rows: nat, cols: nat)
    requires cols > 0 && Sum(ChunkCounts(plan, rows, cols)) <= |data|
    ensures AllRead(Reads(data, ChunkCounts(plan, rows, cols)))
  {
    var counts := ChunkCounts(plan, rows, cols);
    ChunkCountsPositive(plan, rows, cols);
    forall k | 0 <= k < |counts| ensures |Reads(data, counts)[k]| > 0 {
      ReadsFull(data, counts, k);
    }
  }

  lemma MulAtLeast(a: nat, b: nat)
    requires a >= 1
    ensures a * b >= b
  {
    assert a * b == b + (a - 1) * b;
  }

  /** Under the plan as written, when the row count is not a multiple of 100
      and a row holds more than one sample, the scan stops short of the end
      of the raster: it reads `(cols - 1) * (rows mod 100)` samples too few. */
  lemma AsWrittenScanCoverage(data: seq<int>, rows: nat, cols: nat)
    requires cols > 0 && |data| >= rows * cols
    ensures Sum(ChunkCounts(AsWritten, rows, cols)) <= rows * cols
    ensures Flatten(Reads(data, ChunkCounts(AsWritten, rows, cols))) ==
            data[..Sum(ChunkCounts(AsWritten, rows, cols))]
    ensures cols > 1 && rows % 100 > 0 ==> Sum(ChunkCounts(AsWritten, rows, cols)) < rows * cols
  {
    var counts := ChunkCounts(AsWritten, rows, cols);
    var md := rows % 100;
    ChunkTotals(rows, cols);
    MulAtLeast(cols, md);
    assert Position(data, counts) == Sum(counts);
    FlattenReads(data, counts);
    if cols > 1 && md > 0 {
      MulAtLeast(cols - 1, md);
    }
  }

  /** Under the plan as written, a raster whose last sample is its unique
      maximum has that maximum missed whenever the row count is not a
      multiple of 100 and rows hold more than one sample. */
  lemma AsWrittenMissesLastSample(data: seq<int>, rows: nat, cols: nat)
    requires cols > 1 && rows % 100 > 0 && |data| == rows * cols
    requires forall i :: 0 <= i < |data| - 1 ==> data[i] < data[|data| - 1]
    ensures MaxOf(data) == Num(data[|data| - 1])
    ensures ScanChunks(AsWritten, data, rows, cols).Success?
    ensures ScanChunks(AsWritten, data, rows, cols).value.mx.Num?
    ensures ScanChunks(AsWritten, data, rows, cols).value.mx.v < data[|data| - 1]
  {
    var counts := ChunkCounts(AsWritten, rows, cols);
    var chunks := Reads(data, counts);
    AsWrittenScanCoverage(data, rows, cols);
    var n := Sum(counts);
    assert ScanReads(chunks).Success? by {
      PlannedReadsFilled(AsWritten, data, rows, cols);
      ScanReadsOutcome(chunks);
    }
    assert n > 0 by {
      ChunkCountsSum(AsWritten, rows, cols);
    }
    ScanReadsSpec(chunks);
    var m := MaxOf(data[..n]);
    assert m.v in data[..n];
    LastIsMax(data);
  }

  lemma LastIsMax(data: seq<int>)
    requires |data| > 0
    requires forall i :: 0 <= i < |data| - 1 ==> data[i] < data[|data| - 1]
    ensures MaxOf(data) == Num(data[|data| - 1])
  {
    forall x | x in data ensures x <= data[|data| - 1] {
      var i :| 0 <= i < |data| && data[i] == x;
    }
    MaxOfUnique(data, Num(data[|data| - 1]));
  }

  // The samples are a parameter fixed by `requires`, as for
  // `Mn2OvershootExample`, so that the verifier does not unroll the reads.

  /** The smallest instance: 101 rows of 2 samples, all 0 but the last, which
      is 1. As written the scan reports a maximum below 1; the corrected
      plan reports 1. */
  lemma TrailingReadCounterexample(data: seq<int>)
    requires |data| == 202 && data[201] == 1
    requires forall i :: 0 <= i < 201 ==> data[i] == 0
    ensures ScanChunks(AsWritten, data, 101, 2).Success?
    ensures ScanChunks(AsWritten, data, 101, 2).value.mx != MaxOf(data)
    ensures ScanChunks(Corrected, data, 101, 2).Success?
    ensures ScanChunks(Corrected, data, 101, 2).value.mx == MaxOf(data) == Num(1)
  {
    AsWrittenMissesLastSample(data, 101, 2);
    CorrectedScanCoversRaster(data, 101, 2);
    assert data[..202] == data;
  }

  /** The loop of `scanbil` as it runs: a cursor into the file, one read per
      chunk, the state updated after each, stopping at the first empty read. */
  method ScanStream(data: seq<int>, counts: seq<nat>) returns (r: Result<ScanState, nat>)
    ensures r == ScanReads(Reads(data, counts))
  {
    var st := Seed;
    var pos: nat := 0;
    var k: nat := 0;
    while k < |counts|
      invariant k <= |counts|
      invariant pos == Position(data, counts[..k])
      invariant AllRead(Reads(data, counts[..k]))
      invariant Fold(Reads(data, counts[..k])) == st
    {
      var dat := Slice(data, pos, counts[k]);
      ReadStep(data, counts, k);
      if |dat| == 0 {
        FailsAfterPrefix(Reads(data, counts), k);
        return Failure(k);
      }
      FoldAppend(Reads(data, counts[..k]), dat);
      st := Step(st, dat);
      pos := pos + |dat|;
      k := k + 1;
    }
    assert counts[..k] == counts;
    ScanReadsOutcome(Reads(data, counts));
    return Success(st);
  }

  /** Folding one more non-empty chunk is one more loop body. */
  lemma FoldAppend(chunks: seq<seq<int>>, dat: seq<int>)
    requires AllRead(chunks) && |dat| > 0
    ensures AllRead(chunks + [dat])
    ensures Fold(chunks + [dat]) == Step(Fold(chunks), dat)
  {
    assert (chunks + [dat])[..|chunks|] == chunks;
  }

  /** Read `k` is the slice at the cursor left by the reads before it, and
      it moves the cursor past what it returned. */
  lemma ReadStep(data: seq<int>, counts: seq<nat>, k: nat)
    requires k < |counts|
    ensures var p := Position(data, counts[..k]);
            var dat := Slice(data, p, counts[k]);
            && Reads(data, counts)[k] == dat
            && Reads(data, counts)[..k] == Reads(data, counts[..k])
            && Reads(data, counts[..k + 1]) == Reads(data, counts[..k]) + [dat]
            && Position(data, counts[..k + 1]) == p + |dat|
  {
    ReadsPrefix(data, counts, k);
    ReadsAt(data, counts, k);
    assert counts[..k + 1][..k] == counts[..k];
  }

  lemma FailsAfterPrefix(chunks: seq<seq<int>>, k: nat)
    requires k < |chunks| && |chunks[k]| == 0
    requires AllRead(chunks[..k])
    ensures ScanReads(chunks) == Failure(k)
  {
    forall i | 0 <= i < k ensures |chunks[i]| > 0 {
      assert chunks[..k][i] == chunks[i];
    }
    FirstEmptyRead(chunks, k);
  }

  /** The scan fails at the first empty read and nowhere else. */
  lemma FirstEmptyRead(chunks: seq<seq<int>>, k: nat)
    requires k < |chunks| && |chunks[k]| == 0
    requires forall i :: 0 <= i < k ==> |chunks[i]| > 0
    ensures ScanReads(chunks) == Failure(k)
  {
    ScanReadsOutcome(chunks);
  }

  datatype ScanError = HeaderError(cause: ParseError) | FormatUnset | EmptyRead(chunk: nat)

  /** What `scanbil` does once the header is read, under a chunk plan: a
      header without a sample format fails before the raster is read (the
      `KeyError` on `'fmt'`); a chunk that reads nothing fails (`np.min` of an
      empty array); otherwise the summary describes exactly the samples the
      planned reads covered. */
  function ScanWith(plan: Plan, info: HeaderInfo, data: seq<int>): (r: Result<Summary, ScanError>)
    ensures info.fmt.None? ==> r == Failure(FormatUnset)
    ensures r.Failure? ==> r.error.FormatUnset? || r.error.EmptyRead?
    ensures r.Failure? && r.error.EmptyRead? ==>
              var chunks := Reads(data, ChunkCounts(plan, info.r, info.c));
              && r.error.chunk < |chunks| && |chunks[r.error.chunk]| == 0
              && forall k :: 0 <= k < r.error.chunk ==> |chunks[k]| > 0
    ensures info.fmt.Some? ==> (r.Success? <==> AllRead(Reads(data, ChunkCounts(plan, info.r, info.c))))
    ensures r.Success? ==>
              var read := data[..Position(data, ChunkCounts(plan, info.r, info.c))];
              && info.fmt.Some?
              && r.value.max == MaxOf(read)
              && (r.value.background.None? <==> forall x :: x in read ==> x > 0)
              && (r.value.background.None? ==> r.value.min == MinOf(read))
              && (r.value.background.Some? ==> r.value.background == Some(MinOf(read)))
              && (r.value.background.Some? ==>
                    r.value.min == MinOf(Candidates(Reads(data, ChunkCounts(plan, info.r, info.c)))))
  {
    if info.fmt.None? then Failure(FormatUnset)
    else
      var counts := ChunkCounts(plan, info.r, info.c);
      var chunks := Reads(data, counts);
      ScanReadsOutcome(chunks);
      match ScanReads(chunks)
      case Failure(k) => Failure(EmptyRead(k))
      case Success(st) =>
        SummarySpec(chunks);
        FlattenReads(data, counts);
        Success(Background(st))
  }

  /** `scanbil(fnam)` under a chunk plan, given the text of the raster's
      header and its decoded samples. The header is read first: a malformed
      header fails as the parser does, and a header without a sample format
      fails before the raster is read. */
  function ScanBilWith(plan: Plan, header: string, data: seq<int>): (r: Result<Summary, ScanError>)
    ensures !MandatoryFieldsPresent(header) ==> r == Failure(HeaderError(ReadHeaderInfo(header).error))
    ensures MandatoryFieldsPresent(header) && ReadHeaderInfo(header).value.fmt.None? ==>
              r == Failure(FormatUnset)
    ensures r.Success? ==> MandatoryFieldsPresent(header) && ReadHeaderInfo(header).value.fmt.Some?
  {
    match ReadHeaderInfo(header)
    case Failure(e) => Failure(HeaderError(e))
    case Success(info) => ScanWith(plan, info, data)
  }

  /** `scanbil` as written: the trailing read asks for `md` samples. */
  function ScanBil(header: string, data: seq<int>): Result<Summary, ScanError> {
    ScanBilWith(AsWritten, header, data)
  }

  /** `scanbil` with the trailing read asking for the `md` remaining rows. */
  function ScanBilCorrected(header: string, data: seq<int>): Result<Summary, ScanError> {
    ScanBilWith(Corrected, header, data)
  }

  /** The two plans ask for the same reads when there is no partial chunk
      or the raster is one column wide. */
  lemma ChunkPlansAgree(rows: nat, cols: nat)
    requires rows % 100 == 0 || cols == 1
    ensures ChunkCounts(AsWritten, rows, cols) == ChunkCounts(Corrected, rows, cols)
  {
    ChunkRows(rows);
  }

  /** So the scan as written and corrected agree on every such raster. */
  lemma ScanWithPlansAgree(info: HeaderInfo, data: seq<int>)
    requires info.r % 100 == 0 || info.c == 1
    ensures ScanWith(AsWritten, info, data) == ScanWith(Corrected, info, data)
  {
    ChunkPlansAgree(info.r, info.c);
  }

  /** And so do `scanbil` as written and corrected. */
  lemma ScanBilPlansAgree(header: string, data: seq<int>)
    requires ReadHeaderInfo(header).Success?
    requires ReadHeaderInfo(header).value.r % 100 == 0 || ReadHeaderInfo(header).value.c == 1
    ensures ScanBil(header, data) == ScanBilCorrected(header, data)
  {
    match ReadHeaderInfo(header)
    case Success(info) => ScanWithPlansAgree(info, data);
  }

  /** The minimum is positive exactly when every sample is. */
  lemma PositiveMin(s: seq<int>)
    ensures Positive(MinOf(s)) <==> forall x :: x in s ==> x > 0
  {
  }

  /** Under the corrected trailing read, for a header with a sample format
      and a file holding the whole raster, the scan succeeds, its maximum is
      that of the raster's samples, and there is a background exactly when
      some sample is not positive. */
  lemma CorrectedScanWithCoversRaster(info: HeaderInfo, data: seq<int>)
    requires info.fmt.Some? && info.c > 0 && |data| >= info.r * info.c
    ensures var raster := data[..info.r * info.c];
            var r := ScanWith(Corrected, info, data);
            && r.Success?
            && r.value.max == MaxOf(raster)
            && (r.value.background.None? <==> forall x :: x in raster ==> x > 0)
  {
    var counts := ChunkCounts(Corrected, info.r, info.c);
    CorrectedScanCoversRaster(data, info.r, info.c);
    ChunkTotals(info.r, info.c);
    assert Position(data, counts) == info.r * info.c;
  }

  /** As written, when the raster has a partial chunk and more than one
      column, the scan of a complete file succeeds but its maximum and
      background describe only a proper prefix of the raster. */
  lemma AsWrittenScanWithReadsPrefix(info: HeaderInfo, data: seq<int>)
    requires info.fmt.Some? && info.c > 1 && info.r % 100 > 0 && |data| >= info.r * info.c
    ensures var n := Sum(ChunkCounts(AsWritten, info.r, info.c));
            var r := ScanWith(AsWritten, info, data);
            && n < info.r * info.c
            && r.Success?
            && r.value.max == MaxOf(data[..n])
            && (r.value.background.None? <==> forall x :: x in data[..n] ==> x > 0)
  {
    var counts := ChunkCounts(AsWritten, info.r, info.c);
    AsWrittenScanCoverage(data, info.r, info.c);
    PlannedReadsFilled(AsWritten, data, info.r, info.c);
    ScanReadsOutcome(Reads(data, counts));
    assert Position(data, counts) == Sum(counts);
  }
}

=== FILE: stream.dfy ===
/** A raster file as the sequence of its already-decoded samples, and the
    consecutive `np.fromfile(f, count=n)` reads a script performs on it: each
    read returns the next `n` samples, or as many as remain, and moves the
    cursor past what it returned. */
module Stream {

  function Min(a: int, b: int): int {
    if a <= b then a else b
  }

  /** Total of a sequence of requested read sizes. */
  function Sum(counts: seq<nat>): nat {
    if |counts| == 0 then 0 else Sum(counts[..|counts| - 1]) + counts[|counts| - 1]
  }

  /** One read of `count` samples with the cursor at `start`. */
  function Slice<T>(data: seq<T>, start: nat, count: nat): (r: seq<T>)
    requires start <= |data|
    ensures |r| <= count && start + |r| <= |data|
    ensures |r| == count || start + |r| == |data|
    ensures forall i :: 0 <= i < |r| ==> r[i] == data[start + i]
  {
    data[start..Min(start + count, |data|)]
  }

  /** The cursor after performing the reads `counts` from the start of the
      file: each read advances it by the number of samples it returned, so it
      stops at the end of the file. */
  function Position<T>(data: seq<T>, counts: seq<nat>): (p: nat)
    ensures p == Min(Sum(counts), |data|)
  {
    if |counts| == 0 then 0
    else
      var n := |counts| - 1;
      var p := Position(data, counts[..n]);
      p + |Slice(data, p, counts[n])|
  }

  /** What the reads `counts` return, one sequence per read, in order. */
  function Reads<T>(data: seq<T>, counts: seq<nat>): (r: seq<seq<T>>)
    ensures |r| == |counts|
  {
    if |counts| == 0 then []
    else
      var n := |counts| - 1;
      Reads(data, counts[..n]) + [Slice(data, Position(data, counts[..n]), counts[n])]
  }

  /** Concatenation of a sequence of sequences. */
  function Flatten<T>(xs: seq<seq<T>>): seq<T> {
    if |xs| == 0 then [] else Flatten(xs[..|xs| - 1]) + xs[|xs| - 1]
  }

  /** `n` copies of `c`: the read sizes of a loop that asks for `c` samples
      `n` times. */
  function Repeat(c: nat, n: nat): (r: seq<nat>)
    ensures |r| == n
    ensures forall i :: 0 <= i < n ==> r[i] == c
  {
    if n == 0 then [] else Repeat(c, n - 1) + [c]
  }

  lemma {:induction false} SumRepeat(c: nat, n: nat)
    ensures Sum(Repeat(c, n)) == c * n
  {
    if n > 0 {
      assert Repeat(c, n)[..n - 1] == Repeat(c, n - 1);
      SumRepeat(c, n - 1);
    }
  }

  lemma RepeatPrefix(c: nat, n: nat, k: nat)
    requires k <= n
    ensures Repeat(c, n)[..k] == Repeat(c, k)
  {
  }

  lemma {:induction false} SumAppend(xs: seq<nat>, ys: seq<nat>)
    ensures Sum(xs + ys) == Sum(xs) + Sum(ys)
    decreases |ys|
  {
    if |ys| > 0 {
      var n := |ys| - 1;
      assert (xs + ys)[..|xs + ys| - 1] == xs + ys[..n];
      SumAppend(xs, ys[..n]);
    } else {
      assert xs + ys == xs;
    }
  }

  /** The first `k` reads do not depend on the reads after them. */
  lemma {:induction false} ReadsPrefix<T>(data: seq<T>, counts: seq<nat>, k: nat)
    requires k <= |counts|
    ensures Reads(data, counts)[..k] == Reads(data, counts[..k])
    decreases |counts|
  {
    if k < |counts| {
      var n := |counts| - 1;
      assert counts[..n][..k] == counts[..k];
      ReadsPrefix(data, counts[..n], k);
    } else {
      assert counts[..k] == counts;
    }
  }

  /** Read `k` starts where the requested sizes before it add up to, or at
      the end of the file if that lies beyond. */
  lemma ReadsAt<T>(data: seq<T>, counts: seq<nat>, k: nat)
    requires k < |counts|
    ensures Position(data, counts[..k]) == Min(Sum(counts[..k]), |data|)
    ensures Reads(data, counts)[k] == Slice(data, Position(data, counts[..k]), counts[k])
  {
    ReadsPrefix(data, counts, k + 1);
    assert counts[..k + 1][..k] == counts[..k];
  }

  /** The reads are consecutive: together they are exactly the prefix of the
      file up to the final cursor, with nothing skipped or repeated. */
  lemma {:induction false} FlattenReads<T>(data: seq<T>, counts: seq<nat>)
    ensures Flatten(Reads(data, counts)) == data[..Position(data, counts)]
    decreases |counts|
  {
    if |counts| > 0 {
      var n := |counts| - 1;
      var rs := Reads(data, counts);
      assert rs[..n] == Reads(data, counts[..n]);
      FlattenReads(data, counts[..n]);
      var p := Position(data, counts[..n]);
      var q := Position(data, counts);
      var last := Slice(data, p, counts[n]);
      assert q == p + |last|;
      assert last == data[p..q];
      assert data[..p] + data[p..q] == data[..q];
    }
  }

  lemma {:induction false} FlattenAppend<T>(xs: seq<seq<T>>, ys: seq<seq<T>>)
    ensures Flatten(xs + ys) == Flatten(xs) + Flatten(ys)
    decreases |ys|
  {
    if |ys| > 0 {
      var n := |ys| - 1;
      assert (xs + ys)[..|xs + ys| - 1] == xs + ys[..n];
      FlattenAppend(xs, ys[..n]);
    } else {
      assert xs + ys == xs;
    }
  }

  /** When the file holds everything requested, every read returns exactly
      the number of samples it asked for. */
  lemma ReadsFull<T>(data: seq<T>, counts: seq<nat>, k: nat)
    requires k < |counts| && Sum(counts) <= |data|
    ensures |Reads(data, counts)[k]| == counts[k]
  {
    ReadsAt(data, counts, k);
    assert counts[..k + 1] + counts[k + 1..] == counts;
    SumAppend(counts[..k + 1], counts[k + 1..]);
    assert counts[..k + 1][..k] == counts[..k];
  }
}

=== FILE: streammap.dfy ===
/** The binary stream map: each row of the flow-accumulation raster becomes a
    row of 8-bit flags, 1 where the accumulation reaches the threshold. */
module StreamMap {
  import opened Wrappers
  import opened Stream
  import opened BilHeader
  import opened HeaderRewrite
  import opened Text

  /** One sample of the output raster (`np.uint8`). */
  type Byte = b: int | 0 <= b < 256

  /** `np.any(ln >= thr)`. */
  function AnyAtLeast(row: seq<int>, thr: int): (b: bool)
    ensures b <==> exists i :: 0 <= i < |row| && row[i] >= thr
  {
    if |row| == 0 then false
    else AnyAtLeast(row[..|row| - 1], thr) || row[|row| - 1] >= thr
  }

  /** `zro1[ln >= thr] = 1` on a fresh zero array of the row's length. */
  function Classify(row: seq<int>, thr: int): (out: seq<Byte>)
    ensures |out| == |row|
    ensures forall i :: 0 <= i < |row| ==> (out[i] == 1 <==> row[i] >= thr)
    ensures forall i :: 0 <= i < |row| ==> out[i] <= 1
  {
    if |row| == 0 then []
    else Classify(row[..|row| - 1], thr) + [if row[|row| - 1] >= thr then 1 else 0]
  }

  /** The preallocated row of `c` zeros (`zro`). */
  function Zeros(n: nat): (z: seq<Byte>)
    ensures |z| == n
    ensures forall i :: 0 <= i < n ==> z[i] == 0
  {
    seq(n, i => 0)
  }

  /** What the loop writes for one row read from the source: nothing for an
      empty read; one flag per sample read when some sample reaches the
      threshold; otherwise `c` zero bytes, however many samples were read. */
  function RowOutput(row: seq<int>, c: nat, thr: int): (out: seq<Byte>)
    ensures forall i :: 0 <= i < |out| ==> out[i] <= 1
    ensures |row| == 0 ==> out == []
    ensures AnyAtLeast(row, thr) ==>
              && |out| == |row|
              && forall i :: 0 <= i < |row| ==> (out[i] == 1 <==> row[i] >= thr)
    ensures |row| > 0 && !AnyAtLeast(row, thr) ==>
              && |out| == c
              && forall i :: 0 <= i < c ==> out[i] == 0
  {
    if |row| == 0 then []
    else if AnyAtLeast(row, thr) then Classify(row, thr)
    else Zeros(c)
  }

  /** The output for a sequence of rows, in order. */
  function StreamMapOf(rows: seq<seq<int>>, c: nat, thr: int): (out: seq<Byte>)
    ensures forall i :: 0 <= i < |out| ==> out[i] <= 1
  {
    if |rows| == 0 then []
    else StreamMapOf(rows[..|rows| - 1], c, thr) + RowOutput(rows[|rows| - 1], c, thr)
  }

  /** The stream map of `r` rows of `c` samples read from `src`. */
  function Raster(src: seq<int>, r: nat, c: nat, thr: int): seq<Byte> {
    StreamMapOf(Reads(src, Repeat(c, r)), c, thr)
  }

  /** Row `j` is the `j`-th run of `c` consecutive samples, cut short at the
      end of the source. */
  lemma RowIsSlice(src: seq<int>, r: nat, c: nat, j: nat)
    requires j < r
    ensures Reads(src, Repeat(c, r))[j] == Slice(src, Min(j * c, |src|), c)
  {
    ReadsAt(src, Repeat(c, r), j);
    RepeatPrefix(c, r, j);
    SumRepeat(c, j);
  }

  /** Processing one more row appends exactly that row's output. */
  lemma RasterStep(src: seq<int>, j: nat, c: nat, thr: int)
    ensures Raster(src, j + 1, c, thr) ==
            Raster(src, j, c, thr) + RowOutput(Slice(src, Min(j * c, |src|), c), c, thr)
  {
    var rows := Reads(src, Repeat(c, j + 1));
    RowIsSlice(src, j + 1, c, j);
    ReadsPrefix(src, Repeat(c, j + 1), j);
    RepeatPrefix(c, j + 1, j);
    assert rows[..j] == Reads(src, Repeat(c, j));
  }

  /** A full row's output is one flag per sample, whether or not it has a hit. */
  lemma FullRowPointwise(row: seq<int>, c: nat, thr: int)
    requires |row| == c
    ensures |RowOutput(row, c, thr)| == c
    ensures forall i :: 0 <= i < c ==> RowOutput(row, c, thr)[i] == if row[i] >= thr then 1 else 0
  {
  }

  /** With at least `r*c` samples, the output is exactly `r*c` bytes, and byte
      `i` flags whether sample `i` reaches the threshold. */
  lemma {:induction false} RasterFull(src: seq<int>, r: nat, c: nat, thr: int)
    requires |src| >= r * c
    ensures |Raster(src, r, c, thr)| == r * c
    ensures forall i :: 0 <= i < r * c ==>
              Raster(src, r, c, thr)[i] == if src[i] >= thr then 1 else 0
  {
    if r > 0 {
      var j := r - 1;
      var n := j * c;
      assert n + c == r * c;
      RasterFull(src, j, c, thr);
      RasterStep(src, j, c, thr);
      var row := Slice(src, n, c);
      FullRowPointwise(row, c, thr);
      AppendRow(src, Raster(src, j, c, thr), row, n, c, thr);
    }
  }

  /** Appending the output of the full row starting at `n` to a correct
      output for the first `n` samples gives a correct output for `n + c`. */
  lemma AppendRow(src: seq<int>, prev: seq<Byte>, row: seq<int>, n: nat, c: nat, thr: int)
    requires n + c <= |src| && row == Slice(src, n, c)
    requires |prev| == n
    requires forall i :: 0 <= i < n ==> prev[i] == if src[i] >= thr then 1 else 0
    requires |RowOutput(row, c, thr)| == c
    requires forall i :: 0 <= i < c ==> RowOutput(row, c, thr)[i] == if row[i] >= thr then 1 else 0
    ensures var out := prev + RowOutput(row, c, thr);
            && |out| == n + c
            && forall i :: 0 <= i < n + c ==> out[i] == if src[i] >= thr then 1 else 0
  {
    var out := prev + RowOutput(row, c, thr);
    forall i | n <= i < n + c
      ensures out[i] == if src[i] >= thr then 1 else 0
    {
      assert out[i] == RowOutput(row, c, thr)[i - n];
      assert row[i - n] == src[i];
    }
  }

  lemma MulMonotone(a: nat, b: nat, c: nat)
    requires a <= b
    ensures a * c <= b * c
  {
    assert b * c == a * c + (b - a) * c;
  }

  /** Rows that start at or past the end of the source read nothing and
      write nothing. */
  lemma {:induction false} RowsPastEndWriteNothing(src: seq<int>, r: nat, c: nat, thr: int, j: nat)
    requires j <= r && |src| <= j * c
    ensures Raster(src, r, c, thr) == Raster(src, j, c, thr)
  {
    if r > j {
      var m := (r - 1) * c;
      assert j * c <= m by {
        MulMonotone(j, r - 1, c);
      }
      RowsPastEndWriteNothing(src, r - 1, c, thr, j);
      RasterStep(src, r - 1, c, thr);
      var row := Slice(src, Min(m, |src|), c);
      assert |row| == 0;
      assert RowOutput(row, c, thr) == [];
      assert Raster(src, r - 1, c, thr) + [] == Raster(src, r - 1, c, thr);
    }
  }

  // The examples below take the samples as a parameter fixed by `requires`
  // rather than writing the literal in the `ensures`: with a literal argument
  // the verifier unrolls `Reads` and `Raster` eagerly, and the proof becomes
  // far more expensive than the stepwise one given here.

  /** The worked example: three rows of two samples, threshold 5. */
  lemma RasterExample(src: seq<int>)
    requires src == [1, 2, 5, 6, 3, 9]
    ensures Raster(src, 3, 2, 5) == [0, 0, 1, 1, 0, 1]
  {
    RasterFull(src, 3, 2, 5);
  }

  /** A short final row without a hit is padded: three samples in rows of
      two give four zero bytes. */
  lemma ShortRowPaddedExample(src: seq<int>)
    requires src == [1, 2, 3]
    ensures Raster(src, 2, 2, 5) == [0, 0, 0, 0]
  {
    FirstRowClear(src, 5);
    RasterStep(src, 1, 2, 5);
    assert Slice(src, 2, 2) == [3];
    assert RowOutput([3], 2, 5) == [0, 0] by {
      assert !AnyAtLeast([3], 5);
    }
  }

  /** A short final row with a hit is not padded: three samples give three
      bytes. */
  lemma ShortRowHitExample(src: seq<int>)
    requires src == [1, 2, 7]
    ensures Raster(src, 2, 2, 5) == [0, 0, 1]
  {
    FirstRowClear(src, 5);
    RasterStep(src, 1, 2, 5);
    assert Slice(src, 2, 2) == [7];
    assert RowOutput([7], 2, 5) == [1] by {
      assert AnyAtLeast([7], 5);
    }
  }

  /** A first row of two samples below the threshold writes two zeros. */
  lemma FirstRowClear(src: seq<int>, thr: int)
    requires |src| >= 2 && src[0] < thr && src[1] < thr
    ensures Raster(src, 1, 2, thr) == [0, 0]
  {
    RasterStep(src, 0, 2, thr);
    var row := Slice(src, 0, 2);
    assert row == [src[0], src[1]];
    assert !AnyAtLeast(row, thr);
  }

  /** The cursor after `j + 1` rows is the cursor after `j` rows moved past
      the samples row `j` read. */
  lemma CursorStep(src: seq<int>, j: nat, c: nat)
    ensures Min((j + 1) * c, |src|) == Min(j * c, |src|) + |Slice(src, Min(j * c, |src|), c)|
  {
    assert (j + 1) * c == j * c + c;
  }

  lemma PrefixStep(ln: seq<int>, k: nat, thr: int)
    requires k < |ln|
    ensures AnyAtLeast(ln[..k + 1], thr) == (AnyAtLeast(ln[..k], thr) || ln[k] >= thr)
    ensures Classify(ln[..k + 1], thr) == Classify(ln[..k], thr) + [if ln[k] >= thr then 1 else 0]
  {
    assert ln[..k + 1][..k] == ln[..k];
  }

  /** One pass of the loop body over a row that was read: the flags and
      whether any sample reached the threshold, then the choice of output. */
  method RowBytes(ln: seq<int>, c: nat, thr: int) returns (bytes: seq<Byte>)
    ensures bytes == RowOutput(ln, c, thr)
  {
    if |ln| == 0 {
      return [];
    }
    var hit := false;
    var k := 0;
    bytes := [];
    while k < |ln|
      invariant k <= |ln|
      invariant hit <==> AnyAtLeast(ln[..k], thr)
      invariant bytes == Classify(ln[..k], thr)
    {
      PrefixStep(ln, k, thr);
      hit := hit || ln[k] >= thr;
      bytes := bytes + [if ln[k] >= thr then 1 else 0];
      k := k + 1;
    }
    assert ln[..k] == ln;
    if !hit {
      bytes := Zeros(c);
    }
  }

  /** The row loop as the script runs it: a cursor into the source, `r`
      reads of up to `c` samples, each row's output appended in turn. */
  method MakeStreamRows(src: seq<int>, r: nat, c: nat, thr: int) returns (out: seq<Byte>)
    ensures out == Raster(src, r, c, thr)
    ensures forall i :: 0 <= i < |out| ==> out[i] <= 1
  {
    out := [];
    var pos: nat := 0;
    var j: nat := 0;
    while j < r
      invariant j <= r
      invariant pos == Min(j * c, |src|)
      invariant out == Raster(src, j, c, thr)
    {
      var ln := Slice(src, pos, c);
      var bytes := RowBytes(ln, c, thr);
      RasterStep(src, j, c, thr);
      CursorStep(src, j, c);
      out := out + bytes;
      pos := pos + |ln|;
      j := j + 1;
    }
  }

  /** Why `make_stream_map` stops before writing anything: the header could
      not be parsed, it named no sample format (the `KeyError` on `'fmt'`),
      or the raster was opened in binary mode with a `newline` argument,
      which Python's `open` rejects with a `ValueError`. */
  datatype MapError = HeaderError(cause: ParseError) | FormatUnset | BinaryNewline

  /** The stream map written to `strf`, its header, and where the header
      goes. */
  datatype StreamMapFiles = StreamMapFiles(raster: seq<Byte>, headerPath: string, header: string)

  /** `make_stream_map(facf, thr, strf)`, given the text of the source's
      header (the file `HeaderPath(facf)`) and the source's decoded samples.
      The header is parsed first and `'fmt'` looked up; then the raster is
      opened, with `newline=''` when `bytord` is 1, which fails for a binary
      file. So only little-endian (`BYTEORDER I`) headers get through. */
  function MakeStreamMap(facHeader: string, fac: seq<int>, thr: int, strf: string)
    : (r: Result<StreamMapFiles, MapError>)
    ensures r.Success? <==>
              && MandatoryFieldsPresent(facHeader)
              && ReadHeaderInfo(facHeader).value.fmt.Some?
              && ByteOrder(facHeader) == 0
    ensures r.Success? ==> r == MakeStreamMapCorrected(facHeader, fac, thr, strf)
    ensures (&& MandatoryFieldsPresent(facHeader)
             && ReadHeaderInfo(facHeader).value.fmt.Some?
             && ByteOrder(facHeader) == 1) ==> r == Failure(BinaryNewline)
    ensures r.Failure? && !MandatoryFieldsPresent(facHeader) ==>
              r.error == HeaderError(ReadHeaderInfo(facHeader).error)
    ensures MandatoryFieldsPresent(facHeader) && ReadHeaderInfo(facHeader).value.fmt.None? ==>
              r == Failure(FormatUnset)
  {
    match ReadHeaderInfo(facHeader)
    case Failure(e) => Failure(HeaderError(e))
    case Success(info) =>
      HeaderGeometryFields(facHeader);
      if info.fmt.None? then Failure(FormatUnset)
      else if info.bytord == 1 then Failure(BinaryNewline)
      else MakeStreamMapCorrected(facHeader, fac, thr, strf)
  }

  /** `make_stream_map` with an open of the raster that does not raise for
      either byte order: every header that parses and names a format gets a
      stream map. The samples are already decoded, so how a big-endian
      raster should be decoded is outside this model. */
  function MakeStreamMapCorrected(facHeader: string, fac: seq<int>, thr: int, strf: string)
    : (r: Result<StreamMapFiles, MapError>)
    ensures r.Success? <==> MandatoryFieldsPresent(facHeader) && ReadHeaderInfo(facHeader).value.fmt.Some?
    ensures r.Success? ==>
              var info := ReadHeaderInfo(facHeader).value;
              && r.value.raster == Raster(fac, info.r, info.c, thr)
              && SplitLines(r.value.header) == RewriteLines(SplitLines(facHeader))
              && r.value.headerPath == HeaderPath(strf)
    ensures r.Failure? && !MandatoryFieldsPresent(facHeader) ==>
              r.error == HeaderError(ReadHeaderInfo(facHeader).error)
    ensures MandatoryFieldsPresent(facHeader) && ReadHeaderInfo(facHeader).value.fmt.None? ==>
              r == Failure(FormatUnset)
  {
    match ReadHeaderInfo(facHeader)
    case Failure(e) => Failure(HeaderError(e))
    case Success(info) =>
      if info.fmt.None? then Failure(FormatUnset)
      else Success(StreamMapFiles(Raster(fac, info.r, info.c, thr), HeaderPath(strf), RewriteText(facHeader)))
  }

  /** A header that parses and names a format but has no `BYTEORDER I` line
      (a big-endian `BYTEORDER M` header, or none at all) makes the script
      stop with a `ValueError`, where the corrected script writes the map. */
  lemma BinaryNewlineRejected(facHeader: string, fac: seq<int>, thr: int, strf: string)
    requires MandatoryFieldsPresent(facHeader) && ReadHeaderInfo(facHeader).value.fmt.Some?
    requires forall j :: 0 <= j <= |facHeader| ==> MatchAt(facHeader, j, "BYTEORDER", Literal('I')).None?
    ensures MakeStreamMap(facHeader, fac, thr, strf) == Failure(BinaryNewline)
    ensures MakeStreamMapCorrected(facHeader, fac, thr, strf).Success?
  {
    assert ByteOrder(facHeader) == 1;
  }
}

=== FILE: text.dfy ===
/** Character classes and the small regular-expression matchers the header
    parser needs. A search `re.search(r'KEY\s+(TOKEN)', text)` is modelled as
    `Find(text, KEY, token)`: the leftmost position where KEY occurs,
    followed by a non-empty run of whitespace, followed by a token of the
    requested kind; the captured group is the longest such token. */
module Text {
  import opened Wrappers

  /** Python's `\s` on str patterns: the characters `str.isspace` accepts. */
  predicate IsSpace(ch: char) {
    var n := ch as int;
    || n == 0x20 || 0x09 <= n <= 0x0D || 0x1C <= n <= 0x1F
    || n == 0x85 || n == 0xA0 || n == 0x1680 || 0x2000 <= n <= 0x200A
    || n == 0x2028 || n == 0x2029 || n == 0x202F || n == 0x205F || n == 0x3000
  }

  /** `\d`, restricted to ASCII digits. */
  predicate IsDigit(ch: char) {
    '0' <= ch <= '9'
  }

  /** `\w`, restricted to ASCII letters, digits and underscore. */
  predicate IsWordChar(ch: char) {
    'a' <= ch <= 'z' || 'A' <= ch <= 'Z' || IsDigit(ch) || ch == '_'
  }

  predicate IsSign(ch: char) {
    ch == '-' || ch == '+'
  }

  predicate AllOf(t: string, P: char -> bool) {
    forall i :: 0 <= i < |t| ==> P(t[i])
  }

  /** A non-empty string of characters of one class: `\d+` or `\w+`. */
  predicate IsRun(t: string, P: char -> bool) {
    |t| > 0 && AllOf(t, P)
  }

  /** Length of the optional `[-+]` at the start of `t`. */
  function SignLen(t: string): nat {
    if |t| > 0 && IsSign(t[0]) then 1 else 0
  }

  /** The first alternative of `[-+]?\d*\.\d+|\d+`. */
  predicate IsFraction(t: string) {
    exists p :: 0 <= p < |t| && FractionPoint(t, p)
  }

  /** `t` is a fraction whose point is at position `p`. */
  predicate FractionPoint(t: string, p: int) {
    && SignLen(t) <= p < |t| && t[p] == '.'
    && AllOf(t[SignLen(t)..p], IsDigit) && IsRun(t[p + 1..], IsDigit)
  }

  /** The language of `[-+]?\d*\.\d+|\d+`. */
  predicate IsDecimal(t: string) {
    IsRun(t, IsDigit) || IsFraction(t)
  }

  /** The kinds of captured group the header patterns use. */
  datatype Token = Digits | Decimal | Word | Literal(c: char)

  predicate InToken(tok: Token, t: string) {
    match tok
    case Digits => IsRun(t, IsDigit)
    case Decimal => IsDecimal(t)
    case Word => IsRun(t, IsWordChar)
    case Literal(c) => t == [c]
  }

  /** `r` is the longest token of kind `tok` that starts at `k` in `s`, or
      `None` when no non-empty prefix of `s[k..]` is such a token. */
  ghost predicate Longest(s: string, k: nat, tok: Token, r: Option<string>)
    requires k <= |s|
  {
    match r
    case None => forall n :: k < n <= |s| ==> !InToken(tok, s[k..n])
    case Some(t) =>
      && k + |t| <= |s| && s[k..k + |t|] == t && InToken(tok, t)
      && forall n :: k + |t| < n <= |s| ==> !InToken(tok, s[k..n])
  }

  /** End of the maximal run of `P`-characters starting at `i`. */
  function RunEnd(s: string, i: nat, P: char -> bool): (e: nat)
    requires i <= |s|
    ensures i <= e <= |s|
    ensures forall j :: i <= j < e ==> P(s[j])
    ensures e == |s| || !P(s[e])
    decreases |s| - i
  {
    if i == |s| || !P(s[i]) then i else RunEnd(s, i + 1, P)
  }

  /** A prefix of `s[k..]` is a run of `P` exactly when it ends no later than
      the maximal run does. */
  lemma RunPrefix(s: string, k: nat, n: nat, P: char -> bool)
    requires k < n <= |s|
    ensures IsRun(s[k..n], P) <==> n <= RunEnd(s, k, P)
  {
    var e := RunEnd(s, k, P);
    if n <= e {
      forall i | 0 <= i < n - k
        ensures P(s[k..n][i])
      {
        assert s[k..n][i] == s[k + i];
      }
    } else {
      assert s[k..n][e - k] == s[e];
    }
  }

  /** The greedy `\d+` / `\w+` matcher. */
  function RunAt(s: string, k: nat, P: char -> bool): Option<string>
    requires k <= |s|
  {
    var e := RunEnd(s, k, P);
    if e == k then None else Some(s[k..e])
  }

  lemma RunAtLongest(s: string, k: nat, P: char -> bool)
    requires k <= |s|
    ensures RunAt(s, k, P).None? ==> forall n :: k < n <= |s| ==> !IsRun(s[k..n], P)
    ensures RunAt(s, k, P).Some? ==>
              var t := RunAt(s, k, P).value;
              && k + |t| <= |s| && s[k..k + |t|] == t && IsRun(t, P)
              && forall n :: k + |t| < n <= |s| ==> !IsRun(s[k..n], P)
  {
    var e := RunEnd(s, k, P);
    forall n | k < n <= |s|
      ensures IsRun(s[k..n], P) <==> n <= e
    {
      RunPrefix(s, k, n, P);
    }
    if e > k {
      RunPrefix(s, k, e, P);
    }
  }

  /** Where the integer part of a fraction starts: after an optional sign. */
  function SignEnd(s: string, k: nat): (a: nat)
    requires k <= |s|
    ensures k <= a <= |s|
  {
    if k < |s| && IsSign(s[k]) then k + 1 else k
  }

  /** The matcher for `[-+]?\d*\.\d+|\d+`: the first alternative is tried
      first (optional sign, digits, a point, at least one digit), and the
      second (`\d+`) only when it fails. */
  function DecimalAt(s: string, k: nat): Option<string>
    requires k <= |s|
  {
    if HasFraction(s, k) then Some(s[k..FractionEnd(s, k)]) else RunAt(s, k, IsDigit)
  }

  /** End of the digits after the optional sign at `k`. */
  function IntEnd(s: string, k: nat): (d: nat)
    requires k <= |s|
    ensures k <= d <= |s|
  {
    RunEnd(s, SignEnd(s, k), IsDigit)
  }

  /** Whether the fraction alternative matches at `k`: the digits after the
      sign are followed by a point and at least one digit. */
  predicate HasFraction(s: string, k: nat)
    requires k <= |s|
  {
    var d := IntEnd(s, k);
    d < |s| && s[d] == '.' && RunEnd(s, d + 1, IsDigit) > d + 1
  }

  /** End of the fraction alternative's match. */
  function FractionEnd(s: string, k: nat): (e: nat)
    requires k <= |s| && HasFraction(s, k)
    ensures IntEnd(s, k) + 1 < e <= |s|
  {
    RunEnd(s, IntEnd(s, k) + 1, IsDigit)
  }

  /** `s[k..n]` is a fraction whose point sits at position `q` of `s`. */
  ghost predicate FractionAt(s: string, k: nat, n: nat, q: nat)
    requires k <= n <= |s|
  {
    && SignEnd(s, k) <= q < n - 1 && s[q] == '.'
    && (forall j :: SignEnd(s, k) <= j < q ==> IsDigit(s[j]))
    && (forall j :: q < j < n ==> IsDigit(s[j]))
  }

  /** A slice consists of `P`-characters exactly when every position in its
      range holds one. */
  lemma AllOfSlice(s: string, a: nat, b: nat, P: char -> bool)
    requires a <= b <= |s|
    ensures AllOf(s[a..b], P) <==> forall j :: a <= j < b ==> P(s[j])
  {
    forall j | a <= j < b ensures s[a..b][j - a] == s[j] {
    }
    forall i | 0 <= i < b - a ensures s[a..b][i] == s[a + i] {
    }
  }

  lemma SliceOfSlice(s: string, k: nat, n: nat, x: nat, y: nat)
    requires k <= n <= |s| && x <= y <= n - k
    ensures s[k..n][x..y] == s[k + x..k + y]
  {
    forall i | 0 <= i < y - x ensures s[k..n][x..y][i] == s[k + x..k + y][i] {
      assert s[k..n][x..y][i] == s[k..n][x + i];
    }
  }

  /** A point of the slice `s[k..n]` is a point of `s` shifted by `k`. */
  lemma FractionPointShift(s: string, k: nat, n: nat, p: nat)
    requires k < n <= |s| && p < n - k
    ensures FractionPoint(s[k..n], p) <==> FractionAt(s, k, n, k + p)
  {
    var t := s[k..n];
    var a := SignEnd(s, k);
    assert t[0] == s[k];
    assert SignLen(t) == a - k;
    assert t[p] == s[k + p];
    SliceOfSlice(s, k, n, p + 1, n - k);
    AllOfSlice(s, k + p + 1, n, IsDigit);
    var after := forall j :: k + p < j < n ==> IsDigit(s[j]);
    assert IsRun(t[p + 1..], IsDigit) <==> p + 1 < |t| && after;
    if a <= k + p {
      SliceOfSlice(s, k, n, a - k, p);
      AllOfSlice(s, a, k + p, IsDigit);
      assert AllOf(t[SignLen(t)..p], IsDigit) <==> forall j :: a <= j < k + p ==> IsDigit(s[j]);
      if FractionPoint(t, p) {
        assert FractionAt(s, k, n, k + p);
      }
      if FractionAt(s, k, n, k + p) {
        assert FractionPoint(t, p);
      }
    }
  }

  lemma FractionSliceSound(s: string, k: nat, n: nat)
    requires k < n <= |s|
    requires IsFraction(s[k..n])
    ensures exists q: nat :: FractionAt(s, k, n, q)
  {
    var p :| 0 <= p < n - k && FractionPoint(s[k..n], p);
    FractionPointShift(s, k, n, p);
  }

  lemma FractionSliceComplete(s: string, k: nat, n: nat, q: nat)
    requires k < n <= |s|
    requires FractionAt(s, k, n, q)
    ensures IsFraction(s[k..n])
  {
    FractionPointShift(s, k, n, q - k);
  }

  /** A fraction prefix of `s[k..]` has its point where the digit run after
      the sign stops, and ends inside the digit run after the point. */
  lemma FractionShape(s: string, k: nat, n: nat, q: nat)
    requires k < n <= |s|
    requires FractionAt(s, k, n, q)
    ensures IntEnd(s, k) == q && HasFraction(s, k) && n <= FractionEnd(s, k)
  {
  }

  /** Every decimal prefix of `s[k..]` ends inside the digit run at `k` or,
      when the fraction alternative applies, inside the digits after the point. */
  lemma DecimalPrefix(s: string, k: nat, n: nat)
    requires k < n <= |s|
    ensures IsFraction(s[k..n]) ==> HasFraction(s, k) && n <= FractionEnd(s, k)
    ensures IsRun(s[k..n], IsDigit) <==> n <= RunEnd(s, k, IsDigit)
  {
    if IsFraction(s[k..n]) {
      FractionSliceSound(s, k, n);
      var q: nat :| FractionAt(s, k, n, q);
      FractionShape(s, k, n, q);
    }
    RunPrefix(s, k, n, IsDigit);
  }

  /** The digit run at `k` ends no later than the digits after the sign. */
  lemma RunEndWithinInt(s: string, k: nat)
    requires k <= |s|
    ensures RunEnd(s, k, IsDigit) <= IntEnd(s, k)
  {
    if SignEnd(s, k) == k + 1 {
      assert !IsDigit(s[k]);
    }
  }

  /** When the fraction alternative matches, no longer prefix of `s[k..]` is
      a decimal literal. */
  lemma FractionIsLongest(s: string, k: nat, n: nat)
    requires k <= |s| && HasFraction(s, k)
    requires FractionEnd(s, k) < n <= |s|
    ensures !IsDecimal(s[k..n])
  {
    DecimalPrefix(s, k, n);
    RunEndWithinInt(s, k);
  }

  /** When the fraction alternative fails, a prefix of `s[k..]` is a decimal
      literal exactly when it is a digit run. */
  lemma NoFractionIsRun(s: string, k: nat, n: nat)
    requires k < n <= |s| && !HasFraction(s, k)
    ensures IsDecimal(s[k..n]) <==> IsRun(s[k..n], IsDigit)
  {
    DecimalPrefix(s, k, n);
  }

  /** The regular-expression alternation captures exactly the longest prefix
      that is a decimal literal. */
  lemma DecimalAtLongest(s: string, k: nat)
    requires k <= |s|
    ensures Longest(s, k, Decimal, DecimalAt(s, k))
  {
    if HasFraction(s, k) {
      FractionLongest(s, k);
    } else {
      RunLongest(s, k);
    }
  }

  lemma FractionLongest(s: string, k: nat)
    requires k <= |s| && HasFraction(s, k)
    ensures Longest(s, k, Decimal, DecimalAt(s, k))
  {
    var e := FractionEnd(s, k);
    var t := s[k..e];
    assert InToken(Decimal, t) by {
      FractionSliceComplete(s, k, e, IntEnd(s, k));
    }
    assert forall n :: e < n <= |s| ==> !InToken(Decimal, s[k..n]) by {
      forall n | e < n <= |s| ensures !IsDecimal(s[k..n]) {
        FractionIsLongest(s, k, n);
      }
    }
  }

  lemma RunLongest(s: string, k: nat)
    requires k <= |s| && !HasFraction(s, k)
    ensures Longest(s, k, Decimal, DecimalAt(s, k))
  {
    assert forall n :: k < n <= |s| ==> (InToken(Decimal, s[k..n]) <==> IsRun(s[k..n], IsDigit)) by {
      forall n | k < n <= |s| ensures IsDecimal(s[k..n]) <==> IsRun(s[k..n], IsDigit) {
        NoFractionIsRun(s, k, n);
      }
    }
    RunAtLongest(s, k, IsDigit);
  }

  /** The literal-character matcher (`BYTEORDER\s+I`). */
  function CharAt(s: string, k: nat, c: char): Option<string>
    requires k <= |s|
  {
    if k < |s| && s[k] == c then Some([c]) else None
  }

  /** The token matcher: the longest token of kind `tok` starting at `k`. */
  function TokenAt(s: string, k: nat, tok: Token): (r: Option<string>)
    requires k <= |s|
    ensures Longest(s, k, tok, r)
  {
    match tok
    case Digits =>
      RunAtLongest(s, k, IsDigit);
      RunAt(s, k, IsDigit)
    case Word =>
      RunAtLongest(s, k, IsWordChar);
      RunAt(s, k, IsWordChar)
    case Decimal =>
      DecimalAtLongest(s, k);
      DecimalAt(s, k)
    case Literal(c) =>
      assert forall n :: k < n <= |s| && s[k..n] == [c] ==> n == k + 1 && s[k] == c by {
        forall n | k < n <= |s| && s[k..n] == [c] ensures n == k + 1 && s[k] == c {
          assert s[k..n][0] == s[k];
        }
      }
      CharAt(s, k, c)
  }

  /** The pattern `KEY\s+(TOKEN)` anchored at position `i`. */
  function MatchAt(s: string, i: nat, key: string, tok: Token): Option<string>
    requires i <= |s|
  {
    if key <= s[i..] then
      var j := i + |key|;
      var w := RunEnd(s, j, IsSpace);
      if w == j then None else TokenAt(s, w, tok)
    else
      None
  }

  /** A match at `i` reads the key, a maximal non-empty run of whitespace,
      and then the longest token of the requested kind. */
  lemma MatchAtShape(s: string, i: nat, key: string, tok: Token)
    requires i <= |s|
    ensures MatchAt(s, i, key, tok).Some? ==>
              && key <= s[i..]
              && var j := i + |key|;
                 var w := RunEnd(s, j, IsSpace);
                 j < w && Longest(s, w, tok, MatchAt(s, i, key, tok))
  {
  }

  /** The position `re.search` reports when it starts looking at `i`: the
      first position at or after `i` where the pattern matches. */
  function FindFrom(s: string, i: nat, key: string, tok: Token): (r: Option<nat>)
    requires i <= |s|
    ensures r.Some? ==> i <= r.value <= |s| && MatchAt(s, r.value, key, tok).Some?
    ensures r.Some? ==> forall j :: i <= j < r.value ==> MatchAt(s, j, key, tok).None?
    ensures r.None? ==> forall j :: i <= j <= |s| ==> MatchAt(s, j, key, tok).None?
    decreases |s| - i
  {
    if MatchAt(s, i, key, tok).Some? then Some(i)
    else if i == |s| then None
    else FindFrom(s, i + 1, key, tok)
  }

  /** `re.search(KEY\s+(TOKEN), s)`: the group of the leftmost match, which
      is always a token of the requested kind. */
  function Find(s: string, key: string, tok: Token): (r: Option<string>)
    ensures r.Some? ==> InToken(tok, r.value)
  {
    match FindFrom(s, 0, key, tok)
    case Some(j) =>
      MatchAtShape(s, j, key, tok);
      MatchAt(s, j, key, tok)
    case None => None
  }

  /** `Find` reports the capture of the leftmost position where the pattern
      matches, and nothing when it matches nowhere. */
  lemma FindLeftmost(s: string, key: string, tok: Token)
    ensures Find(s, key, tok).Some? <==> exists j :: 0 <= j <= |s| && MatchAt(s, j, key, tok).Some?
    ensures Find(s, key, tok).Some? ==>
              exists j :: 0 <= j <= |s| && MatchAt(s, j, key, tok) == Find(s, key, tok) &&
                          forall j' :: 0 <= j' < j ==> MatchAt(s, j', key, tok).None?
  {
  }

  /** Python's `p in s` for strings, from position `i` onwards. */
  function OccursFrom(s: string, i: nat, p: string): (b: bool)
    requires i <= |s|
    ensures b <==> exists j :: i <= j <= |s| && p <= s[j..]
    decreases |s| - i
  {
    if p <= s[i..] then true
    else if i == |s| then false
    else OccursFrom(s, i + 1, p)
  }

  /** Python's `p in s` for strings. */
  function Occurs(s: string, p: string): (b: bool)
    ensures b <==> exists j :: 0 <= j <= |s| && p <= s[j..]
  {
    OccursFrom(s, 0, p)
  }

  function DigitValue(ch: char): nat
    requires IsDigit(ch)
  {
    (ch as int) - ('0' as int)
  }

  /** Python's `int(t)` on a string of ASCII digits. */
  function DigitsValue(t: string): nat
    requires AllOf(t, IsDigit)
  {
    if |t| == 0 then 0
    else
      var init := t[..|t| - 1];
      assert AllOf(init, IsDigit) by {
        forall i | 0 <= i < |init| ensures IsDigit(init[i]) {
          assert init[i] == t[i];
        }
      }
      10 * DigitsValue(t[..|t| - 1]) + DigitValue(t[|t| - 1])
  }

  /** Python's `str(n)` for a natural number. */
  function NatToDecimal(n: nat): (t: string)
    ensures IsRun(t, IsDigit)
    ensures |t| > 1 ==> t[0] != '0'
  {
    var last := ['0' + ((n % 10) as char)];
    if n < 10 then last else NatToDecimal(n / 10) + last
  }

  /** `int(str(n)) == n`. */
  lemma {:induction false} DecimalRoundTrip(n: nat)
    ensures DigitsValue(NatToDecimal(n)) == n
  {
    var t := NatToDecimal(n);
    if n >= 10 {
      DecimalRoundTrip(n / 10);
      assert t[..|t| - 1] == NatToDecimal(n / 10);
    }
  }

  /** Different numbers print differently. */
  lemma NatToDecimalInjective(m: nat, n: nat)
    requires NatToDecimal(m) == NatToDecimal(n)
    ensures m == n
  {
    DecimalRoundTrip(m);
    DecimalRoundTrip(n);
  }
}

=== FILE: wrappers.dfy ===
/** Failure-compatible wrappers used throughout the model: `Option` for a
    regular-expression search that may find nothing, `Result` for the
    operations that raise in the original program. */
module Wrappers {

  datatype Option<+T> = None | Some(value: T)

  datatype Result<+R, +E> = Success(value: R) | Failure(error: E) {

    predicate IsFailure() {
      Failure?
    }

    function PropagateFailure<U>(): Result<U, E>
      requires Failure?
    {
      Failure(error)
    }

    function Extract(): R
      requires Success?
    {
      value
    }
  }
}
